=== FILE: README.md ===
# Blog front end over a headless CMS — a Dafny model

The blog is a server-rendered front end over a headless CMS (Payload). Its
logic is a set of small decision and transformation rules. This project
states them as pure Dafny functions over immutable datatypes and proves
what they promise:

- **Tag slugs** (`slugs.dfy`). The `slug` field's `beforeValidate` hook keeps
  a slug the editor typed. Otherwise it derives one from the tag name:
  lower-case it, turn every run of characters other than `a`-`z`/`0`-`9`
  into one `-`, and drop a `-` at either end.
- **Public reads** (`queries.dfy`, `blog_actions.dfy`,
  `listing_properties.dfy`). These build `where` clauses, limits, pages and
  sorts for the listing, search, by-category, by-tag, recent and
  single-post reads. Slugs resolve to ids, and the listing falls back to the
  raw parameter. Store failures are caught. The status default of the post
  form actions is modelled here too. The document store is the parameter
  `find`, a function from query to `Found(page)` or `Threw`. `Holds` gives
  `where` clauses a meaning. How a `contains` clause matches text, with or
  without regard to letter case, is the store's choice and a parameter of
  `Holds`. So "only published posts" is stated about a store that answers
  the one query a read makes honestly, under whichever matching it uses.
- **URL filter transitions** (`entries.dfy`, `search_params.dfy`,
  `sidebar.dfy`, `interactions.dfy`). `URLSearchParams` follows section 6.2
  of the WHATWG URL Standard (`get`, `getAll`, `set`, `delete`) and the
  application/x-www-form-urlencoded serializer of section 5.2, including
  UTF-8 and percent-encoding. The sidebar and search-box handlers return the
  URL they navigate to instead of calling `router.push`.
- **Post records and the form** (`posts.dfy`, `blog_form.dfy`,
  `posts_api.dfy`). The tags text of the form is joined with `", "` and
  parsed back by split/trim/filter. Posts convert to and from the CMS
  shape. The client's fallback store is a sequence with get, create,
  update and delete.

Shared helpers: `wrappers.dfy` (`Option`, `Response`, JavaScript
truthiness), `text.dfy` (`trim` over the exact ECMAScript white-space set,
`split` on one character, `join`) and `numbers.dfy` (`parseInt` without a
radix, including the `0x` prefix and NaN).

A non-numeric `page` is not replaced by 1: `parseInt`'s result, NaN
included, goes straight into the query (`src/lib/blog-actions.ts:217`), and
1 is used only when the parameter is absent or empty
(`BlogActions.ListingPage`).

## Model

| member | source | states |
|---|---|---|
| Slugs.Slugify | src/collections/Tags.tsx:32-35 | a derived slug has only `a`-`z`, `0`-`9` and `-`, no `--`, no `-` at either end, and the same letters and digits in the same order as the lower-cased name |
| Slugs.SlugifySeparated | src/collections/Tags.tsx:32-35 | two names with letters or digits, joined by a non-empty separator without any, slugify to their two slugs joined by exactly one `-` |
| Slugs.SlugifyOfSlug | src/collections/Tags.tsx:32-35 | a name whose lower-case form already has the slug shape is its own slug |
| Slugs.Collapse | src/collections/Tags.tsx:34 | no `--`, letters and digits kept in order, and the result starts (ends) with `-` iff the input starts (ends) with a character other than `a`-`z`, `0`-`9` |
| Slugs.CollapseAppend | src/collections/Tags.tsx:34 | collapsing works piece by piece wherever the cut does not fall inside a run of other characters |
| Slugs.CollapseOfJunk | src/collections/Tags.tsx:34 | a non-empty run of characters other than `a`-`z`, `0`-`9` becomes exactly one `-` |
| Slugs.StripDashes | src/collections/Tags.tsx:35 | a `-` at the start and a `-` at the end are removed and nothing else (a lone `-` leaves nothing); letters and digits are kept, and a collapsed string becomes a slug |
| Slugs.SlugHook | src/collections/Tags.tsx:30-38 | a non-empty submitted slug is returned unchanged; with neither slug nor name the slug comes back as given; otherwise the result is the slug derived from the name |
| Slugs.SlugifyIdempotent | src/collections/Tags.tsx:33-35 | slugifying a slug gives the same slug |
| Slugs.SlugOfNameWithoutAlnums | src/collections/Tags.tsx:33-35 | a name with no letters or digits after lower-casing yields the empty slug |
| Slugs.SlugifyExample | src/collections/Tags.tsx:32-35 | "C++" becomes "c" |
| Numbers.ParseInt | src/lib/blog-actions.ts:217 | `parseInt` of blank text is NaN and of text starting with a digit 1-9 a non-negative number; the three lemmas below pin the rest: decimal digits read back, trailing text ignored, NaN without leading digits |
| Numbers.ParseIntOfIntToString | src/lib/blog-actions.ts:217 | `parseInt` reads back the decimal digits of every integer, sign included (JavaScript prints integers this way below 10^21) |
| Numbers.ParseIntIgnoresTrailingText | src/lib/blog-actions.ts:217 | the digits of any `m` followed by text that starts with a non-digit parse as `m` ("12abc" is 12), except an `x` or `X` after a lone `0`, which starts a hexadecimal number |
| Numbers.ParseIntOfWord | src/lib/blog-actions.ts:217 | any text whose first character is neither white space, a sign nor a decimal digit parses as NaN, which the listing passes on as the page |
| BlogActions.Resolve | src/lib/blog-actions.ts:170-177 | a slug lookup hits with the first document's id when the store finds any, misses when it finds none, fails when it throws |
| BlogActions.ListingPage | src/lib/blog-actions.ts:217 | the page is 1 when the parameter is absent or empty, otherwise `parseInt` of it |
| BlogActions.ListingQuery | src/lib/blog-actions.ts:213-221 | the listing queries `posts` with limit 10, sort newest `publishedDate` first, and the page rule |
| BlogActions.GetBlogPosts | src/lib/blog-actions.ts:156-235 | a failed lookup or a throwing listing query gives the fixed empty page; otherwise the listing answers exactly the page the store returned for the listing query |
| BlogActions.GetBlogPost | src/lib/blog-actions.ts:238-262 | a post is returned iff the store found it and its status is `published`; a throw or a draft gives `None` |
| BlogActions.BySlugQuery | src/lib/blog-actions.ts:265-278 | the by-slug read asks for one post, with no page or sort, and a post matches exactly when it is published and has that slug, under any text matching |
| BlogActions.GetBlogPostBySlug | src/lib/blog-actions.ts:265-285 | the first document of the by-slug query, and `None` iff the query threw or found nothing |
| BlogActions.RecentQuery | src/lib/blog-actions.ts:318-330 | recent posts come from `posts`, published only, newest first, with limit 5 only when no limit is passed |
| BlogActions.GetRecentPosts | src/lib/blog-actions.ts:318-336 | the store's documents for the recent-posts query, or `[]` when it throws |
| BlogActions.LimitOr | src/lib/blog-actions.ts:359 | `limit \|\| 10`: a missing or zero limit becomes the fallback, any other is kept |
| BlogActions.CategoryPostsQuery | src/lib/blog-actions.ts:351-363 | posts of a category: collection `posts`, newest first, no page, limit `limit \|\| 10`, and a post matches exactly when it is published and has that category id |
| BlogActions.GetPostsByCategory | src/lib/blog-actions.ts:339-370 | a slug that names no category, or a failed lookup, gives `[]`; there is no raw fallback |
| BlogActions.TagPostsQuery | src/lib/blog-actions.ts:388-400 | posts of a tag: collection `posts`, newest first, no page, limit `limit \|\| 10`, and a post matches exactly when it is published and carries that tag id |
| BlogActions.GetPostsByTag | src/lib/blog-actions.ts:375-407 | a slug that names no tag, or a failed lookup, gives `[]`; there is no raw fallback |
| BlogActions.SearchQuery | src/lib/blog-actions.ts:411-433 | no query is made iff the trimmed term is empty; otherwise collection `posts`, `and` of published and the four-field `or` on the trimmed term, limit `limit \|\| 20`, newest first |
| BlogActions.SearchPosts | src/lib/blog-actions.ts:411-444 | a blank query gives `[]`; otherwise the store's documents for the search query, or `[]` when it throws |
| BlogActions.CreatePostInput | src/lib/blog-actions.ts:16-30 | the created post's status is `'draft'` when the form field is missing or empty and the field otherwise; all other fields are read from the form as for an update |
| BlogActions.UpdatePostInput | src/lib/blog-actions.ts:51-65 | the update sends every field the create sends, read from the form the same way, and differs only in the status: given as is, `None` when missing, no default |
| BlogActions.CreatePostAction | src/lib/blog-actions.ts:14-47 | success carries the store's post; a throw gives the failure message "Failed to create post" |
| BlogActions.UpdatePostAction | src/lib/blog-actions.ts:49-84 | success carries the store's post; a throw gives the failure message "Failed to update post" |
| ListingProperties.ListingIsPublishedOnly | src/lib/blog-actions.ts:163-165 | the listing's clause always has `status = published` as a conjunct, whatever the parameters and lookups |
| ListingProperties.ListingCategoryFilter | src/lib/blog-actions.ts:168-182 | the listing filters on category `v` iff a category is given and `v` is the looked-up id on a hit or the raw parameter otherwise |
| ListingProperties.ListingTagFilter | src/lib/blog-actions.ts:185-198 | the listing filters on tags iff a tag is given, always with a one-element `in` list of the looked-up id or the raw parameter |
| ListingProperties.ListingSearchFilter | src/lib/blog-actions.ts:200-209 | the listing has a search disjunction iff the trimmed search is non-empty, and it is the four-field search on the trimmed term |
| ListingProperties.SearchMatches | src/lib/blog-actions.ts:203-208 | a post matches the search disjunction iff the store's text matching finds the term in its title, excerpt, content or SEO keywords |
| ListingProperties.ListingAbsorbsFailures | src/lib/blog-actions.ts:231-234 | a throw in either lookup or in the main query yields exactly `{docs: [], totalDocs: 0, totalPages: 0, page: 1, hasPrevPage: false, hasNextPage: false}` |
| ListingProperties.SlugMissDiffers | src/lib/blog-actions.ts:339-349 | a category slug whose lookup finds no document, whatever the page's other fields, is used as a raw id by the listing but makes the by-category read answer `[]` |
| ListingProperties.ListingReturnsPublished | src/lib/blog-actions.ts:162-221 | with a store that answers the listing's query honestly, under any text matching, every post the listing returns is published |
| ListingProperties.BySlugReturnsPublished | src/lib/blog-actions.ts:265-285 | with a store that answers the slug query honestly, under any text matching, the by-slug read returns only a published post |
| ListingProperties.RecentReturnsPublished | src/lib/blog-actions.ts:318-336 | with a store that answers the recent-posts query honestly, under any text matching, recent posts are all published |
| ListingProperties.ByCategoryReturnsPublished | src/lib/blog-actions.ts:339-370 | with a store that answers the category's posts query honestly, under any text matching, posts by category are all published |
| ListingProperties.ByTagReturnsPublished | src/lib/blog-actions.ts:375-407 | with a store that answers the tag's posts query honestly, under any text matching, posts by tag are all published |
| ListingProperties.SearchReturnsPublishedMatches | src/lib/blog-actions.ts:411-444 | with a store that answers the search query honestly, every search result is published and the store's text matching finds the trimmed term in a searched field |
| ListingProperties.CaseBlindMatch | src/lib/blog-actions.ts:203-208 | a store matching without regard to letter case honestly answers `contains "react"` with a post titled "React"; a case-sensitive one would not |
| Entries.GetAll | src/lib/blog-actions.ts:22 | `getAll('tags')` is empty iff no entry has the name and lists at most one value per entry; with GetAllAppend it lists every such value in entry order, repeats kept |
| Entries.Get | src/app/components/BlogSidebar.tsx:39-41 | `get` is `None` iff no entry has the name, otherwise the value of the first such entry |
| Entries.GetIsFirstOfGetAll | src/app/components/BlogSidebar.tsx:39-41 | `get` answers the first of the values `getAll` lists |
| Entries.GetAllAppend | src/lib/blog-actions.ts:57 | `getAll` lists the values in entry order, keeping repeats: it distributes over concatenation |
| SearchParams.Delete | src/app/components/BlogSidebar.tsx:49 | `delete` leaves no entry under the name and every other entry in order |
| SearchParams.Set | src/app/components/BlogSidebar.tsx:47 | `set` leaves exactly one entry under the name, holding the value, at the first old position or appended; other entries are kept in order |
| SearchParams.Serialize | src/app/components/BlogSidebar.tsx:55 | the serialised query is empty iff there are no entries |
| SearchParams.SerializeSplitsPerEntry | src/app/components/BlogSidebar.tsx:55 | the query splits at `&` into exactly one encoded `name=value` per entry, in order |
| SearchParams.Target | src/app/components/BlogSidebar.tsx:55-56 | the target is the bare path iff no entries remain, otherwise `path?query`; a `?` appears iff the query is non-empty |
| Sidebar.FilterParams | src/app/components/BlogSidebar.tsx:43-54 | afterwards no `page` entry remains; a non-empty value leaves exactly one `key` entry with it; an empty or null value leaves none; entries under other keys are unchanged |
| Sidebar.UpdateFilters | src/app/components/BlogSidebar.tsx:43-57 | the target is the bare path iff no parameters remain after the update, and otherwise the path, `?` and the serialized remaining parameters |
| Sidebar.ClearAllFilters | src/app/components/BlogSidebar.tsx:59-61 | clearing all filters targets the path with no parameters |
| Sidebar.FindBySlug | src/app/components/BlogSidebar.tsx:88 | the first term with the slug, or `None` iff no term has it |
| Sidebar.ActiveLabel | src/app/components/BlogSidebar.tsx:88 | the label is the first matching term's name when non-empty; the raw slug when no term matches or the first match has an empty name |
| Sidebar.PopularTags | src/app/components/BlogSidebar.tsx:177 | at most 10 tags are offered, namely the first ones in order |
| Interactions.SearchParamsFor | src/app/components/BlogInteractions.tsx:26-33 | a non-blank term sets `search` to the trimmed term and removes `page`; a blank term removes `search` only; other entries are unchanged |
| Interactions.HandleSearch | src/app/components/BlogInteractions.tsx:22-38 | the search box keeps the term as typed; the URL is the bare path iff no parameters remain, otherwise the path, `?` and the serialized parameters with the trimmed term |
| Interactions.SearchKeepsCategory | src/app/components/BlogInteractions.tsx:35-37 | a search keeps the category parameter |
| Interactions.BlankSearchKeepsPage | src/app/components/BlogInteractions.tsx:31-33 | a blank search leaves every `page` entry as it was |
| Interactions.ClearedParams | src/app/components/BlogInteractions.tsx:53-55 | clearing removes `search` and `page` and nothing else |
| Interactions.ClearSearch | src/app/components/BlogInteractions.tsx:51-59 | clearing empties the search box; the URL is the bare path iff no parameters remain without `search` and `page`, otherwise the path, `?` and their serialization |
| Interactions.WithoutCategory | src/app/components/BlogInteractions.tsx:107-109 | the category chip removes `category` and `page` and nothing else |
| Interactions.RemoveCategoryChip | src/app/components/BlogInteractions.tsx:106-112 | the target is the bare path iff no parameters remain once `category` and `page` are gone, and otherwise the path, `?` and the serialized remaining parameters |
| Text.Trim | src/app/components/BlogForm.tsx:40 | `trim` gives the infix left once the white space at both ends is removed |
| Text.Split | src/app/components/BlogForm.tsx:40 | `split(',')` gives comma-free pieces that join back with `,` to the input |
| Text.TrimOfSpaced | src/app/components/BlogForm.tsx:40 | trimming a trimmed text, with or without one leading space, gives that text |
| Text.SplitJoin | src/app/components/BlogForm.tsx:28-40 | splitting undoes joining when no piece holds the separator |
| BlogForm.ParseTags | src/app/components/BlogForm.tsx:40 | no submitted tag is empty, holds a comma, or starts or ends with white space |
| BlogForm.ParseTagsOfPiece | src/app/components/BlogForm.tsx:40 | a text without a comma gives its trimmed self as the one tag, or no tag when it is blank |
| BlogForm.ParseTagsAppend | src/app/components/BlogForm.tsx:40 | the tags of `a,b` are the tags of `a` followed by those of `b`: pieces are kept in order and blank ones dropped |
| BlogForm.InitialForm | src/app/components/BlogForm.tsx:22-29 | without a post every text field is empty and published is false; with one, its fields and its tags joined with `", "` |
| BlogForm.Submit | src/app/components/BlogForm.tsx:34-41 | submit copies title, content, excerpt, author and published, and submits the tags parsed from the tags text, all clean |
| BlogForm.HandleChange | src/app/components/BlogForm.tsx:46-51 | `field` takes the value and every other field keeps its value |
| BlogForm.ParseJoinedTags | src/app/components/BlogForm.tsx:28-40 | clean tags joined with `", "` parse back to the same list, the empty list included |
| BlogForm.EditUnchangedRoundTrip | src/app/components/BlogForm.tsx:22-41 | opening a post with clean tags and submitting it unchanged gives back its editable fields |
| PostsApi.TagTexts | src/app/lib/api.ts:20 | every text is non-empty, and a text is kept iff some entry holds it as its `.tag`; there are never more texts than entries |
| PostsApi.TagTextsOfOne | src/app/lib/api.ts:20 | one entry gives its text when it is present and non-empty, and nothing otherwise |
| PostsApi.TagTextsAppend | src/app/lib/api.ts:20 | the texts of two entry lists put together are the texts of the first followed by those of the second, so order and repeats are kept |
| PostsApi.FromPayload | src/app/lib/api.ts:10-22 | every field is copied; published is true only when the document says true; missing tags give `[]` |
| PostsApi.ToPayload | src/app/lib/api.ts:25-34 | each tag is wrapped as `{tag}` with length and order kept; the five other fields are copied |
| PostsApi.TagTextsOfWrapped | src/app/lib/api.ts:20-33 | wrapping tags as `{tag}` and reading them back gives every tag iff none is empty; an empty one is lost |
| PostsApi.RoundTrip | src/app/lib/api.ts:10-34 | storing a draft and reading it back gives the same draft iff no tag is empty |
| PostsApi.GetPost | src/app/lib/api.ts:74 | the first post with the id, or `None` iff no post has it |
| Posts.WithMeta | src/app/lib/api.ts:99-104 | the new post has the draft's fields and the given id and timestamps |
| PostsApi.CreatePost | src/app/lib/api.ts:99-106 | the new post has the draft's fields, the given id and the two given timestamps, and is put in front: the store grows by one and the old posts follow unchanged |
| PostsApi.UpdatePost | src/app/lib/api.ts:131-139 | a missing id gives `None` and leaves the store; otherwise only the first match is replaced by the merged post |
| PostsApi.Merge | src/app/lib/api.ts:134-138 | each patched field takes the patch's value, the others keep the post's, and `updatedAt` is the new time |
| PostsApi.DeletePost | src/app/lib/api.ts:159-163 | a missing id gives `false` and leaves the store; otherwise exactly the first match is removed |
| PostsApi.DeleteUndoesCreate | src/app/lib/api.ts:99-163 | deleting a post just created restores the store |
| PostsApi.GetAfterUpdate | src/app/lib/api.ts:131-139 | after an update that keeps the id, the post is found under its id with the patch applied |

## Left out

- The rich-text document renderer: its source is not part of this model.
- Payload set-up (`getPayload`), `revalidatePath`, console logging, and the `depth` and `overrideAccess` arguments. These belong to the CMS and the framework.
- `getAllCategories` and `getAllTags`. Each makes one `find` of every document of its collection (`limit: 0`, sorted by name) and returns the documents, or `[]` on a throw; they state nothing beyond the store's answer.
- `deletePostAction`, `createCategoryAction` and `createTagAction`. They pass the id or copy form fields into one store call and make no decision.
- The network path of `src/app/lib/api.ts`: `fetch`, `delay` and the HTTP status checks. Only the fallback branches are modelled.
- `getPosts`' fallback: it returns a copy of the store, which states nothing.
- The second `api` declaration (`src/app/lib/api.ts:171-177`). It refers to an undefined `postsApi`. The undefined `mockPosts` becomes the `store` parameter.
- `src/lib/api.ts` (a fetch wrapper) and `BlogCard.tsx` (presentation and locale date formatting).
- React rendering and state. `router.push` becomes a returned URL. `setSearchTerm` becomes the returned search-box text. `handleKeyPress` (which calls `handleSearch` only when the key is Enter) and `handleSubmit` (which always calls it) are not modelled on their own.
- The sidebar's `hasActiveFilters`: it only decides whether the active-filter panel is rendered.
- Collection access rules and the CMS-enforced `unique` and `maxLength` checks of `Tags.tsx`.
- Numbers are unbounded integers, not doubles. `parseInt("-0")` gives 0 rather than -0, and precision loss past 2^53 is not modelled.
- Fields a CMS document lacks altogether, other than `published` and `tags`, are modelled as present strings.
- Lone UTF-16 surrogates have no Dafny `char`. So their replacement by U+FFFD, which happens when a string is converted to a USVString on entry to `URLSearchParams`, is not modelled.
- Slugs.LowerChar: maps only the code points whose lower-case form holds `a`-`z` or `0`-`9`. Every other character becomes `-` in a slug whatever its lower case, so the derived slug is unaffected.
- BlogForm.HandleChange: requires the value kind to fit the field (a flag for `published`, a text otherwise). The TypeScript signature accepts either kind for any field, but every call site passes the fitting one.

=== FILE: blog_actions.dfy ===
/**
 * The server actions of the blog: the public reads (listing, single post,
 * recent posts, posts by category or tag, search) and the post form
 * actions. Every store call is made through `find` (or `findById`), a
 * parameter standing for the document store, so a read is a pure function
 * of its arguments and the store's answers. A call that throws is caught:
 * the listing answers the fixed empty page, the list reads `[]`, the
 * single-post reads `None`.
 */
module BlogActions {
  import opened Wrappers
  import opened Numbers
  import Text
  import opened Entries
  import opened Queries

  type Find = FindArgs -> Response<PageResult>

  /** `limit || fallback` for an optional numeric argument: 0 counts as missing. */
  function LimitOr(limit: Option<int>, fallback: int): (r: int)
    ensures limit.Some? && limit.value != 0 ==> r == limit.value
    ensures limit == None || limit == Some(0) ==> r == fallback
  {
    if limit.Some? && limit.value != 0 then limit.value else fallback
  }

  /** The answer to a slug lookup in `categories` or `tags`. */
  datatype Resolution = Hit(id: string) | Miss | LookupFailed

  /** `find({collection, where: {slug: {equals: slug}}, limit: 1})`. */
  function SlugLookup(collection: string, slug: string): FindArgs {
    FindArgs(collection, Equals("slug", slug), 1, None, None)
  }

  /** Resolves `slug` to the id of the first document the lookup returns. */
  function Resolve(find: Find, collection: string, slug: string): (r: Resolution)
    ensures r.LookupFailed? <==> find(SlugLookup(collection, slug)).Threw?
    ensures r.Hit? <==> find(SlugLookup(collection, slug)).Found?
                        && |find(SlugLookup(collection, slug)).value.docs| > 0
    ensures r.Hit? ==> r.id == find(SlugLookup(collection, slug)).value.docs[0].id
  {
    match find(SlugLookup(collection, slug))
    case Threw => LookupFailed
    case Found(res) => if |res.docs| > 0 then Hit(res.docs[0].id) else Miss
  }

  /** The resolved id, or the raw parameter when the lookup found nothing. */
  function IdOr(r: Resolution, raw: string): string {
    if r.Hit? then r.id else raw
  }

  /** The free-text search: the term occurs in the title, excerpt, content or SEO keywords. */
  function SearchClauses(term: string): seq<Where> {
    [Contains("title", term), Contains("excerpt", term), Contains("content", term),
     Contains("seo.keywords", term)]
  }

  /** The optional URL parameters of the listing (`None` when absent). */
  datatype ListingParams = ListingParams(
    category: Option<string>,
    tag: Option<string>,
    search: Option<string>,
    page: Option<string>)

  /** The search term is present and not blank. */
  predicate HasSearch(p: ListingParams) {
    p.search.Some? && Text.Trim(p.search.value) != []
  }

  /** The category filter of the listing: none without a category parameter. */
  function CategoryClause(p: ListingParams, cat: Resolution): seq<Where> {
    if Truthy(p.category) then [Equals("category", IdOr(cat, p.category.value))] else []
  }

  /** The tag filter of the listing: none without a tag parameter. */
  function TagClause(p: ListingParams, tag: Resolution): seq<Where> {
    if Truthy(p.tag) then [In("tags", [IdOr(tag, p.tag.value)])] else []
  }

  /** The search filter of the listing: none without a non-blank search term. */
  function SearchClause(p: ListingParams): seq<Where> {
    if HasSearch(p) then [Or(SearchClauses(Text.Trim(p.search.value)))] else []
  }

  /** The listing's `where`, given the outcomes of the category and tag lookups. */
  function ListingWhere(p: ListingParams, cat: Resolution, tag: Resolution): Where {
    And([StatusPublished] + CategoryClause(p, cat) + TagClause(p, tag) + SearchClause(p))
  }

  const PageSize := 10

  /** `page ? parseInt(page) : 1`. */
  function ListingPage(page: Option<string>): (n: JsNumber)
    ensures !Truthy(page) ==> n == Num(1)
    ensures Truthy(page) ==> n == ParseInt(page.value)
  {
    if Truthy(page) then ParseInt(page.value) else Num(1)
  }

  /** The main `find` of the listing. */
  function ListingQuery(p: ListingParams, cat: Resolution, tag: Resolution): (a: FindArgs)
    ensures a.collection == "posts" && a.limit == 10 && a.sort == Some(Descending("publishedDate"))
    ensures !Truthy(p.page) ==> a.page == Some(Num(1))
    ensures Truthy(p.page) ==> a.page == Some(ParseInt(p.page.value))
  {
    FindArgs("posts", ListingWhere(p, cat, tag), PageSize, Some(ListingPage(p.page)), Some(NewestFirst))
  }

  /** What the listing answers when any store call throws. */
  const EmptyPage := PageResult([], 0, 0, 1, false, false)

  /** The lookup the listing makes for the category parameter (none when it is absent). */
  function CategoryOf(p: ListingParams, find: Find): Resolution {
    if Truthy(p.category) then Resolve(find, "categories", p.category.value) else Miss
  }

  /** The lookup the listing makes for the tag parameter (none when it is absent). */
  function TagOf(p: ListingParams, find: Find): Resolution {
    if Truthy(p.tag) then Resolve(find, "tags", p.tag.value) else Miss
  }

  /**
   * `getBlogPosts`: one page of published posts, filtered and sorted. The
   * store's page is passed on when no call throws; any throw gives the
   * fixed empty page.
   */
  function GetBlogPosts(p: ListingParams, find: Find): (r: PageResult)
    ensures CategoryOf(p, find).LookupFailed? || TagOf(p, find).LookupFailed? ==> r == EmptyPage
    ensures !CategoryOf(p, find).LookupFailed? && !TagOf(p, find).LookupFailed? ==>
              var res := find(ListingQuery(p, CategoryOf(p, find), TagOf(p, find)));
              && (res.Threw? ==> r == EmptyPage)
              && (res.Found? ==> r == res.value)
  {
    var cat := CategoryOf(p, find);
    var tag := TagOf(p, find);
    if cat.LookupFailed? || tag.LookupFailed? then EmptyPage
    else
      match find(ListingQuery(p, cat, tag))
      case Threw => EmptyPage
      case Found(res) =>
        PageResult(res.docs, res.totalDocs, res.totalPages, res.page, res.hasPrevPage, res.hasNextPage)
  }

  /** `getBlogPost`: the post with that id, only when it exists and is published. */
  function GetBlogPost(id: string, findById: string -> Response<Option<Doc>>): (r: Option<Doc>)
    ensures r.Some? <==> findById(id).Found? && findById(id).value.Some?
                         && findById(id).value.value.status == "published"
    ensures r.Some? ==> findById(id) == Found(r) && r.value.status == "published"
  {
    match findById(id)
    case Threw => None
    case Found(post) => if post.None? || post.value.status != "published" then None else post
  }

  /** The first document of a page, or `None` when the call threw or found nothing. */
  function FirstDoc(res: Response<PageResult>): (r: Option<Doc>)
    ensures r.Some? ==> res.Found? && |res.value.docs| > 0 && r.value == res.value.docs[0]
    ensures r.None? ==> res.Threw? || res.value.docs == []
  {
    if res.Found? && |res.value.docs| > 0 then Some(res.value.docs[0]) else None
  }

  /** The documents of a page, or `[]` when the call threw. */
  function DocsOr(res: Response<PageResult>): (r: seq<Doc>)
    ensures res.Found? ==> r == res.value.docs
    ensures res.Threw? ==> r == []
  {
    if res.Found? then res.value.docs else []
  }

  function BySlugQuery(slug: string): (a: FindArgs)
    ensures a.collection == "posts" && a.limit == 1
    ensures IsConjunct(a.where, StatusPublished) && IsConjunct(a.where, Equals("slug", slug))
    ensures forall d: Doc, m: Matcher :: Holds(a.where, d, m) <==> d.status == "published" && slug in Values(d, "slug")
    ensures a.page.None? && a.sort.None?
  {
    var w := And([Equals("slug", slug), StatusPublished]);
    assert w.clauses[0] == Equals("slug", slug) && w.clauses[1] == StatusPublished;
    FindArgs("posts", And([Equals("slug", slug), StatusPublished]), 1, None, None)
  }

  /** `getBlogPostBySlug`: the first document of the by-slug query, or `None` on a throw or an empty page. */
  function GetBlogPostBySlug(slug: string, find: Find): (r: Option<Doc>)
    ensures r.Some? <==> find(BySlugQuery(slug)).Found? && |find(BySlugQuery(slug)).value.docs| > 0
    ensures r.Some? ==> r.value == find(BySlugQuery(slug)).value.docs[0]
  {
    FirstDoc(find(BySlugQuery(slug)))
  }

  /** `limit` defaults to 5 only when the argument is left out. */
  function RecentQuery(limit: Option<int>): (a: FindArgs)
    ensures a.collection == "posts"
    ensures a.where == Equals("status", "published") && a.sort == Some(Descending("publishedDate"))
    ensures limit.None? ==> a.limit == 5
    ensures limit.Some? ==> a.limit == limit.value
  {
    FindArgs("posts", StatusPublished, limit.GetOr(5), None, Some(NewestFirst))
  }

  /** `getRecentPosts`: the store's documents for the recent-posts query, or `[]` on a throw. */
  function GetRecentPosts(limit: Option<int>, find: Find): (r: seq<Doc>)
    ensures find(RecentQuery(limit)).Found? ==> r == find(RecentQuery(limit)).value.docs
    ensures find(RecentQuery(limit)).Threw? ==> r == []
  {
    DocsOr(find(RecentQuery(limit)))
  }

  function CategoryPostsQuery(id: string, limit: Option<int>): (a: FindArgs)
    ensures a.collection == "posts"
    ensures IsConjunct(a.where, StatusPublished) && IsConjunct(a.where, Equals("category", id))
    ensures forall d: Doc, m: Matcher :: Holds(a.where, d, m) <==> d.status == "published" && id in Values(d, "category")
    ensures a.limit == LimitOr(limit, 10) && a.sort == Some(Descending("publishedDate")) && a.page.None?
  {
    var w := And([Equals("category", id), StatusPublished]);
    assert w.clauses[0] == Equals("category", id) && w.clauses[1] == StatusPublished;
    FindArgs("posts", And([Equals("category", id), StatusPublished]), LimitOr(limit, 10), None,
             Some(NewestFirst))
  }

  /** `getPostsByCategory`: nothing unless the slug names a category; the slug is never used as an id. */
  function GetPostsByCategory(slug: string, limit: Option<int>, find: Find): (r: seq<Doc>)
    ensures !Resolve(find, "categories", slug).Hit? ==> r == []
    ensures Resolve(find, "categories", slug).Hit? ==>
              r == DocsOr(find(CategoryPostsQuery(Resolve(find, "categories", slug).id, limit)))
  {
    match Resolve(find, "categories", slug)
    case Hit(id) => DocsOr(find(CategoryPostsQuery(id, limit)))
    case _ => []
  }

  function TagPostsQuery(id: string, limit: Option<int>): (a: FindArgs)
    ensures a.collection == "posts"
    ensures IsConjunct(a.where, StatusPublished) && IsConjunct(a.where, In("tags", [id]))
    ensures forall d: Doc, m: Matcher :: Holds(a.where, d, m) <==> d.status == "published" && id in Values(d, "tags")
    ensures a.limit == LimitOr(limit, 10) && a.sort == Some(Descending("publishedDate")) && a.page.None?
  {
    var w := And([In("tags", [id]), StatusPublished]);
    assert w.clauses[0] == In("tags", [id]) && w.clauses[1] == StatusPublished;
    FindArgs("posts", And([In("tags", [id]), StatusPublished]), LimitOr(limit, 10), None,
             Some(NewestFirst))
  }

  /** `getPostsByTag`: nothing unless the slug names a tag; the slug is never used as an id. */
  function GetPostsByTag(slug: string, limit: Option<int>, find: Find): (r: seq<Doc>)
    ensures !Resolve(find, "tags", slug).Hit? ==> r == []
    ensures Resolve(find, "tags", slug).Hit? ==>
              r == DocsOr(find(TagPostsQuery(Resolve(find, "tags", slug).id, limit)))
  {
    match Resolve(find, "tags", slug)
    case Hit(id) => DocsOr(find(TagPostsQuery(id, limit)))
    case _ => []
  }

  /** The `find` of `searchPosts`, or `None` when the query is blank and nothing is asked. */
  function SearchQuery(query: string, limit: Option<int>): (r: Option<FindArgs>)
    ensures r.None? <==> Text.Trim(query) == []
    ensures r.Some? ==> r.value.where == And([StatusPublished, Or(SearchClauses(Text.Trim(query)))])
    ensures r.Some? ==> r.value.collection == "posts" && r.value.limit == LimitOr(limit, 20)
    ensures r.Some? ==> r.value.sort == Some(Descending("publishedDate"))
  {
    var term := Text.Trim(query);
    if term == [] then None
    else Some(FindArgs("posts", And([StatusPublished, Or(SearchClauses(term))]), LimitOr(limit, 20),
                       None, Some(NewestFirst)))
  }

  /** `searchPosts`: nothing for a blank query, otherwise the store's documents, or `[]` on a throw. */
  function SearchPosts(query: string, limit: Option<int>, find: Find): (r: seq<Doc>)
    ensures Text.Trim(query) == [] ==> r == []
    ensures Text.Trim(query) != [] ==>
              var res := find(SearchQuery(query, limit).value);
              && (res.Found? ==> r == res.value.docs)
              && (res.Threw? ==> r == [])
  {
    match SearchQuery(query, limit)
    case None => []
    case Some(a) => DocsOr(find(a))
  }

  // ----- The post form actions -----

  /** The post data the form actions send to the store (`None` where `formData.get` gives `null`). */
  datatype PostInput = PostInput(
    title: Option<string>,
    slug: Option<string>,
    excerpt: Option<string>,
    content: Option<string>,
    category: Option<string>,
    tags: seq<string>,
    status: Option<string>,
    publishedDate: Option<string>,
    metaTitle: Option<string>,
    metaDescription: Option<string>,
    keywords: Option<string>)

  /** The post data read from the form, with the status field as given. */
  function FormPost(fd: Entries): PostInput {
    PostInput(Get(fd, "title"), Get(fd, "slug"), Get(fd, "excerpt"), Get(fd, "content"),
              Get(fd, "category"), GetAll(fd, "tags"), Get(fd, "status"), Get(fd, "publishedDate"),
              Get(fd, "metaTitle"), Get(fd, "metaDescription"), Get(fd, "keywords"))
  }

  /** `createPostAction`'s data: a missing or empty status becomes `'draft'`. */
  function CreatePostInput(fd: Entries): (r: PostInput)
    ensures r.status.Some?
    ensures !Truthy(Get(fd, "status")) ==> r.status == Some("draft")
    ensures Truthy(Get(fd, "status")) ==> r.status == Get(fd, "status")
    ensures r.(status := None) == FormPost(fd).(status := None)
  {
    var given := FormPost(fd);
    given.(status := Some(if Truthy(given.status) then given.status.value else "draft"))
  }

  /** `updatePostAction`'s data: the status is sent as given, with no default. */
  function UpdatePostInput(fd: Entries): (r: PostInput)
    ensures r.status == Get(fd, "status")
    ensures Absent(fd, "status") ==> r.status == None
    ensures r.(status := None) == CreatePostInput(fd).(status := None)
    ensures r.title == Get(fd, "title") && r.tags == GetAll(fd, "tags")
  {
    FormPost(fd)
  }

  datatype ActionResult = Saved(post: Doc) | Failed(error: string)

  /** `createPostAction`: the created post, or the fixed failure message. */
  function CreatePostAction(fd: Entries, create: PostInput -> Response<Doc>): (r: ActionResult)
    ensures r.Failed? <==> create(CreatePostInput(fd)).Threw?
    ensures r.Failed? ==> r.error == "Failed to create post"
    ensures r.Saved? ==> create(CreatePostInput(fd)) == Found(r.post)
  {
    match create(CreatePostInput(fd))
    case Found(post) => Saved(post)
    case Threw => Failed("Failed to create post")
  }

  /** `updatePostAction`: the updated post, or the fixed failure message. */
  function UpdatePostAction(id: string, fd: Entries, update: (string, PostInput) -> Response<Doc>)
    : (r: ActionResult)
    ensures r.Failed? <==> update(id, UpdatePostInput(fd)).Threw?
    ensures r.Failed? ==> r.error == "Failed to update post"
    ensures r.Saved? ==> update(id, UpdatePostInput(fd)) == Found(r.post)
  {
    match update(id, UpdatePostInput(fd))
    case Found(post) => Saved(post)
    case Threw => Failed("Failed to update post")
  }
}

=== FILE: blog_form.dfy ===
/**
 * The post editor form. Its state holds the tags as one comma-separated
 * text; submitting splits that text back into a list.
 */
module BlogForm {
  import opened Wrappers
  import Text
  import opened Posts

  datatype FormState = FormState(
    title: string,
    content: string,
    excerpt: string,
    author: string,
    published: bool,
    tags: string)

  /** `tags.join(', ')`. */
  function JoinTags(tags: seq<string>): string {
    Text.Join(tags, ", ")
  }

  /** A tag the form can submit: non-empty, without a comma, trimmed. */
  predicate IsCleanTag(t: string) {
    t != [] && ',' !in t && Text.Trimmed(t)
  }

  /** The trimmed pieces that are not empty, in order. */
  function CleanPieces(pieces: seq<string>): (tags: seq<string>)
    requires forall i :: 0 <= i < |pieces| ==> ',' !in pieces[i]
    ensures |tags| <= |pieces|
    ensures forall i :: 0 <= i < |tags| ==> IsCleanTag(tags[i])
  {
    if pieces == [] then []
    else
      var t := Text.Trim(pieces[0]);
      Text.TrimKeepsChars(pieces[0]);
      if t == [] then CleanPieces(pieces[1..]) else [t] + CleanPieces(pieces[1..])
  }

  /** `text.split(',').map(t => t.trim()).filter(t => t.length > 0)`. */
  function ParseTags(text: string): (tags: seq<string>)
    ensures forall i :: 0 <= i < |tags| ==> IsCleanTag(tags[i])
  {
    CleanPieces(Text.Split(text, ','))
  }

  /** A text without a comma is one tag, trimmed, or none when it is blank. */
  lemma ParseTagsOfPiece(s: string)
    requires ',' !in s
    ensures Text.Trim(s) != [] ==> ParseTags(s) == [Text.Trim(s)]
    ensures Text.Trim(s) == [] ==> ParseTags(s) == []
  {
    Text.SplitWithoutSep(s, ',');
    assert [s][1..] == [];
  }

  /** The text before the first comma contributes its tag, if any, ahead of the tags of the rest. */
  lemma ParseTagsAppend(a: string, b: string)
    requires ',' !in a
    ensures ParseTags(a + "," + b) == ParseTags(a) + ParseTags(b)
  {
    var rest := Text.Split(b, ',');
    assert Text.Split(a + "," + b, ',') == [a] + rest by {
      Text.SplitAfterPiece(a, ',', b);
    }
    assert ([a] + rest)[0] == a && ([a] + rest)[1..] == rest;
    ParseTagsOfPiece(a);
  }

  /** The form's initial state: the post's fields, or empty ones when creating a post. */
  function InitialForm(post: Option<BlogPost>): (f: FormState)
    ensures post.None? ==> f == FormState([], [], [], [], false, [])
    ensures post.Some? ==> f == FormState(post.value.title, post.value.content, post.value.excerpt,
                                          post.value.author, post.value.published,
                                          JoinTags(post.value.tags))
  {
    match post
    case None => FormState([], [], [], [], false, [])
    case Some(p) => FormState(p.title, p.content, p.excerpt, p.author, p.published, JoinTags(p.tags))
  }

  /** The data `handleSubmit` passes on. */
  function Submit(f: FormState): (d: PostDraft)
    ensures d.title == f.title && d.content == f.content && d.excerpt == f.excerpt
    ensures d.author == f.author && d.published == f.published
    ensures d.tags == ParseTags(f.tags)
    ensures forall i :: 0 <= i < |d.tags| ==> IsCleanTag(d.tags[i])
  {
    PostDraft(f.title, f.content, f.excerpt, f.author, f.published, ParseTags(f.tags))
  }

  /** The fields `handleChange` is called with. */
  datatype Field = Title | Content | Excerpt | Author | Published | Tags

  /** What an input hands to `handleChange`: a text, or a checkbox's state. */
  datatype FieldValue = Text(text: string) | Flag(flag: bool)

  /** The checkbox field takes a flag; every other field takes a text. */
  predicate Fits(field: Field, value: FieldValue) {
    field.Published? <==> value.Flag?
  }

  /** The value of `field` in `f`. */
  function Read(f: FormState, field: Field): FieldValue {
    match field
    case Title => Text(f.title)
    case Content => Text(f.content)
    case Excerpt => Text(f.excerpt)
    case Author => Text(f.author)
    case Published => Flag(f.published)
    case Tags => Text(f.tags)
  }

  /** `handleChange(field, value)`: `field` takes `value` and nothing else changes. */
  function HandleChange(f: FormState, field: Field, value: FieldValue): (g: FormState)
    requires Fits(field, value)
    ensures Read(g, field) == value
    ensures forall other :: other != field ==> Read(g, other) == Read(f, other)
  {
    match field
    case Title => f.(title := value.text)
    case Content => f.(content := value.text)
    case Excerpt => f.(excerpt := value.text)
    case Author => f.(author := value.text)
    case Published => f.(published := value.flag)
    case Tags => f.(tags := value.text)
  }

  // ----- The tag text round trip -----

  /** The pieces `split(',')` makes of `tags.join(', ')`: each tag after the first keeps a leading space. */
  function SpacedPieces(tags: seq<string>): (pieces: seq<string>)
    requires tags != []
    ensures |pieces| == |tags|
  {
    [tags[0]] + seq(|tags| - 1, i requires 0 <= i < |tags| - 1 => " " + tags[i + 1])
  }

  /** Joining with `", "` is joining the spaced pieces with `","`. */
  lemma {:induction false} JoinTagsAsPieces(tags: seq<string>)
    requires tags != []
    ensures JoinTags(tags) == Text.Join(SpacedPieces(tags), ",")
    decreases |tags|
  {
    if |tags| > 1 {
      var rest := tags[1..];
      JoinTagsAsPieces(rest);
      var ps := SpacedPieces(tags);
      var qs := SpacedPieces(rest);
      assert ps[1..] == [" " + rest[0]] + qs[1..];
      if |tags| > 2 {
        assert Text.Join(ps[1..], ",") == " " + rest[0] + "," + Text.Join(qs[1..], ",") by {
          assert ps[1..][1..] == qs[1..];
        }
        assert Text.Join(qs, ",") == rest[0] + "," + Text.Join(qs[1..], ",");
      }
    }
  }

  /** `piece` is `tag`, possibly after one leading space. */
  predicate PieceOf(piece: string, tag: string) {
    piece == tag || piece == " " + tag
  }

  /** A clean tag in front of pieces that clean to `rest` cleans to the tag followed by `rest`. */
  lemma CleanPiecesCons(pieces: seq<string>, t: string, rest: seq<string>)
    requires pieces != []
    requires forall i :: 0 <= i < |pieces| ==> ',' !in pieces[i]
    requires IsCleanTag(t) && PieceOf(pieces[0], t)
    requires CleanPieces(pieces[1..]) == rest
    ensures CleanPieces(pieces) == [t] + rest
  {
    Text.TrimOfSpaced(pieces[0], t);
  }

  /** Cleaning the spaced pieces of clean tags gives the tags back. */
  lemma {:induction false} CleanSpaced(tags: seq<string>, pieces: seq<string>)
    requires forall i :: 0 <= i < |tags| ==> IsCleanTag(tags[i])
    requires |pieces| == |tags|
    requires forall i :: 0 <= i < |pieces| ==> ',' !in pieces[i]
    requires forall i :: 0 <= i < |tags| ==> PieceOf(pieces[i], tags[i])
    ensures CleanPieces(pieces) == tags
    decreases |tags|
  {
    if tags != [] {
      CleanSpaced(tags[1..], pieces[1..]);
      CleanPiecesCons(pieces, tags[0], tags[1..]);
      assert tags == [tags[0]] + tags[1..];
    }
  }

  /** Submitting the initial text of clean tags gives the same tags, the empty list included. */
  lemma ParseJoinedTags(tags: seq<string>)
    requires forall i :: 0 <= i < |tags| ==> IsCleanTag(tags[i])
    ensures ParseTags(JoinTags(tags)) == tags
  {
    if tags == [] {
      assert Text.Split([], ',') == [[]];
    } else {
      var ps := SpacedPieces(tags);
      JoinTagsAsPieces(tags);
      assert forall i :: 0 <= i < |ps| ==> ',' !in ps[i] by {
        forall i | 0 <= i < |ps| ensures ',' !in ps[i] {
          if i > 0 { assert ps[i] == " " + tags[i]; }
        }
      }
      Text.SplitJoin(ps, ',');
      CleanSpaced(tags, ps);
    }
  }

  /** Opening a post in the form and submitting it unchanged gives back its editable fields. */
  lemma EditUnchangedRoundTrip(p: BlogPost)
    requires forall i :: 0 <= i < |p.tags| ==> IsCleanTag(p.tags[i])
    ensures Submit(InitialForm(Some(p))) == DraftOf(p)
  {
    ParseJoinedTags(p.tags);
  }
}

=== FILE: entries.dfy ===
/**
 * Ordered lists of name/value pairs, the shape shared by `URLSearchParams`
 * and `FormData`. `get` answers the first value under a name and `getAll`
 * every value under it, in order.
 */
module Entries {
  import opened Wrappers

  type Entries = seq<(string, string)>

  /** `i` is the position of the first entry named `name`. */
  predicate FirstAt(es: Entries, name: string, i: int) {
    && 0 <= i < |es|
    && es[i].0 == name
    && forall j :: 0 <= j < i ==> es[j].0 != name
  }

  /** No entry is named `name`. */
  predicate Absent(es: Entries, name: string) {
    forall i :: 0 <= i < |es| ==> es[i].0 != name
  }

  /** `get(name)`: the value of the first entry named `name`, if any. */
  function Get(es: Entries, name: string): (r: Option<string>)
    ensures r.None? <==> Absent(es, name)
    ensures r.Some? ==> exists i :: FirstAt(es, name, i) && es[i].1 == r.value
  {
    if es == [] then None
    else if es[0].0 == name then
      assert FirstAt(es, name, 0);
      Some(es[0].1)
    else
      var r := Get(es[1..], name);
      if r.Some? then
        var i :| FirstAt(es[1..], name, i) && es[1..][i].1 == r.value;
        assert FirstAt(es, name, i + 1);
        r
      else r
  }

  /** `getAll(name)`: the values of all entries named `name`, in order. */
  function GetAll(es: Entries, name: string): (r: seq<string>)
    ensures |r| <= |es|
    ensures r == [] <==> Absent(es, name)
  {
    if es == [] then []
    else if es[0].0 == name then [es[0].1] + GetAll(es[1..], name)
    else GetAll(es[1..], name)
  }

  /** `getAll` reads the values in entry order: it distributes over concatenation. */
  lemma {:induction false} GetAllAppend(a: Entries, b: Entries, name: string)
    ensures GetAll(a + b, name) == GetAll(a, name) + GetAll(b, name)
  {
    if a != [] {
      assert (a + b)[1..] == a[1..] + b;
      GetAllAppend(a[1..], b, name);
    } else {
      assert a + b == b;
    }
  }

  /** The values of a single entry named `name`, or none for another name. */
  lemma GetAllOfOne(e: (string, string), name: string)
    ensures GetAll([e], name) == if e.0 == name then [e.1] else []
  {
    assert [e][1..] == [];
  }

  /** The number of entries named `name`. */
  function Count(es: Entries, name: string): nat {
    |GetAll(es, name)|
  }

  /** The entries whose names are not in `names`, in their original order. */
  function Others(es: Entries, names: set<string>): (r: Entries)
    ensures |r| <= |es|
    ensures forall e :: e in r <==> e in es && e.0 !in names
  {
    if es == [] then []
    else if es[0].0 in names then Others(es[1..], names)
    else [es[0]] + Others(es[1..], names)
  }

  /** `get` answers the first of the values `getAll` lists. */
  lemma {:induction false} GetIsFirstOfGetAll(es: Entries, name: string)
    ensures Get(es, name) == if GetAll(es, name) == [] then None else Some(GetAll(es, name)[0])
  {
    if es != [] && es[0].0 != name {
      GetIsFirstOfGetAll(es[1..], name);
    }
  }
}

=== FILE: interactions.dfy ===
/**
 * The search box above the post list: submitting a term, clearing it,
 * and removing the category chip. Each handler rewrites the current query
 * parameters and returns the new contents of the search box together with
 * the URL it navigates to.
 */
module Interactions {
  import opened Wrappers
  import Text
  import opened Entries
  import opened SearchParams

  /** The search box's new text and the URL navigated to. */
  datatype Navigation = Navigation(term: string, url: string)

  /** The parameters after `handleSearch(term)`. */
  function SearchParamsFor(es: Entries, term: string): (r: Entries)
    ensures Text.Trim(term) != [] ==>
              && Count(r, "search") == 1 && Get(r, "search") == Some(Text.Trim(term))
              && Absent(r, "page")
              && Others(r, {"search", "page"}) == Others(es, {"search", "page"})
    ensures Text.Trim(term) == [] ==>
              Absent(r, "search") && Others(r, {"search"}) == Others(es, {"search"})
  {
    var t := Text.Trim(term);
    if t != [] then
      var withTerm := Set(es, "search", t);
      OthersKeeps(withTerm, {"page"}, "search");
      DeleteTwo(es, withTerm, "search", "page");
      Delete(withTerm, "page")
    else
      Delete(es, "search")
  }

  /** Deleting `b` after a change confined to `a` changes nothing but entries under `a` and `b`. */
  lemma DeleteTwo(es: Entries, changed: Entries, a: string, b: string)
    requires Others(changed, {a}) == Others(es, {a})
    ensures Others(Delete(changed, b), {a, b}) == Others(es, {a, b})
  {
    OthersOfOthers(changed, {b}, {a, b});
    OthersOfOthers(changed, {a}, {a, b});
    OthersOfOthers(es, {a}, {a, b});
    assert {b} + {a, b} == {a, b} == {a} + {a, b};
  }

  /** `handleSearch(term)`: the box keeps the term as typed; the URL carries it trimmed. */
  function HandleSearch(path: string, es: Entries, term: string): (n: Navigation)
    ensures n.term == term
    ensures n.url == path <==> SearchParamsFor(es, term) == []
    ensures SearchParamsFor(es, term) != [] ==> n.url == path + "?" + Serialize(SearchParamsFor(es, term))
  {
    Navigation(term, Target(path, SearchParamsFor(es, term)))
  }

  /** The parameters after `clearSearch`. */
  function ClearedParams(es: Entries): (r: Entries)
    ensures Absent(r, "search") && Absent(r, "page")
    ensures Others(r, {"search", "page"}) == Others(es, {"search", "page"})
  {
    var noSearch := Delete(es, "search");
    OthersKeeps(noSearch, {"page"}, "search");
    DeleteTwo(es, noSearch, "search", "page");
    Delete(noSearch, "page")
  }

  /** `clearSearch`: empties the box and drops the search term and the page. */
  function ClearSearch(path: string, es: Entries): (n: Navigation)
    ensures n.term == []
    ensures n.url == path <==> ClearedParams(es) == []
    ensures ClearedParams(es) != [] ==> n.url == path + "?" + Serialize(ClearedParams(es))
  {
    Navigation([], Target(path, ClearedParams(es)))
  }

  /** The parameters after the category chip's remove button. */
  function WithoutCategory(es: Entries): (r: Entries)
    ensures Absent(r, "category") && Absent(r, "page")
    ensures Others(r, {"category", "page"}) == Others(es, {"category", "page"})
  {
    var noCategory := Delete(es, "category");
    OthersKeeps(noCategory, {"page"}, "category");
    DeleteTwo(es, noCategory, "category", "page");
    Delete(noCategory, "page")
  }

  /** The category chip's remove button: the URL it navigates to. */
  function RemoveCategoryChip(path: string, es: Entries): (url: string)
    ensures url == path <==> WithoutCategory(es) == []
    ensures WithoutCategory(es) != [] ==> url == path + "?" + Serialize(WithoutCategory(es))
    ensures '?' !in path ==> ('?' in url <==> WithoutCategory(es) != [])
  {
    Target(path, WithoutCategory(es))
  }

  /** A search keeps the category filter and every other unrelated parameter. */
  lemma SearchKeepsCategory(es: Entries, term: string)
    ensures Get(SearchParamsFor(es, term), "category") == Get(es, "category")
  {
    var r := SearchParamsFor(es, term);
    var names: set<string> := if Text.Trim(term) != [] then {"search", "page"} else {"search"};
    assert Others(r, names) == Others(es, names);
    assert "category" !in names;
    OthersAgree(es, r, names, "category");
  }

  /** A blank search leaves the page parameter alone. */
  lemma BlankSearchKeepsPage(es: Entries, term: string)
    requires Text.Trim(term) == []
    ensures GetAll(SearchParamsFor(es, term), "page") == GetAll(es, "page")
  {
    assert SearchParamsFor(es, term) == Delete(es, "search") == Others(es, {"search"});
    OthersKeeps(es, {"search"}, "page");
  }
}

=== FILE: listing_properties.dfy ===
/** What the public reads of the blog guarantee, whatever the store answers. */
module ListingProperties {
  import opened Wrappers
  import Text
  import opened Queries
  import opened BlogActions

  /** Every element of a clause list is a conjunct of their `And`. */
  lemma ElementIsConjunct(cs: seq<Where>, i: int)
    requires 0 <= i < |cs|
    ensures IsConjunct(And(cs), cs[i])
  {
    assert IsConjunct(cs[i], cs[i]);
  }

  /** The listing always asks for published posts, whatever the parameters and lookups. */
  lemma ListingIsPublishedOnly(p: ListingParams, cat: Resolution, tag: Resolution)
    ensures IsConjunct(ListingQuery(p, cat, tag).where, StatusPublished)
  {
    ElementIsConjunct(ListingWhere(p, cat, tag).clauses, 0);
  }

  /** The conjuncts of the listing's clause list, and what each can be. */
  lemma ListingClauses(p: ListingParams, cat: Resolution, tag: Resolution, c: Where)
    requires IsConjunct(ListingWhere(p, cat, tag), c)
    ensures || c == ListingWhere(p, cat, tag)
            || c == StatusPublished
            || (Truthy(p.category) && c == Equals("category", IdOr(cat, p.category.value)))
            || (Truthy(p.tag) && c == In("tags", [IdOr(tag, p.tag.value)]))
            || (HasSearch(p) && c == Or(SearchClauses(Text.Trim(p.search.value))))
  {
    var a, b, d := CategoryClause(p, cat), TagClause(p, tag), SearchClause(p);
    var cs := [StatusPublished] + a + b + d;
    assert ListingWhere(p, cat, tag) == And(cs);
    if c != And(cs) {
      var i :| 0 <= i < |cs| && IsConjunct(cs[i], c);
      var w := cs[i];
      assert w in cs;
      assert w == StatusPublished || w in a || w in b || w in d;
      assert !w.And?;
      assert w == c;
    }
  }

  /**
   * The listing filters on category `v` exactly when a category is given,
   * and `v` is the looked-up id on a hit and the raw parameter otherwise.
   */
  lemma ListingCategoryFilter(p: ListingParams, cat: Resolution, tag: Resolution, v: string)
    ensures IsConjunct(ListingWhere(p, cat, tag), Equals("category", v))
        <==> Truthy(p.category) && v == IdOr(cat, p.category.value)
  {
    var cs := ListingWhere(p, cat, tag).clauses;
    if IsConjunct(ListingWhere(p, cat, tag), Equals("category", v)) {
      ListingClauses(p, cat, tag, Equals("category", v));
    }
    if Truthy(p.category) {
      ElementIsConjunct(cs, 1);
    }
  }

  /**
   * The listing filters on tags exactly when a tag is given, always with a
   * one-element `in` list: the looked-up id on a hit, the raw parameter otherwise.
   */
  lemma ListingTagFilter(p: ListingParams, cat: Resolution, tag: Resolution, vs: seq<string>)
    ensures IsConjunct(ListingWhere(p, cat, tag), In("tags", vs))
        <==> Truthy(p.tag) && vs == [IdOr(tag, p.tag.value)]
  {
    if IsConjunct(ListingWhere(p, cat, tag), In("tags", vs)) {
      ListingClauses(p, cat, tag, In("tags", vs));
    }
    if Truthy(p.tag) {
      TagIsConjunct(p, cat, tag);
    }
  }

  /** A given tag puts its `in` clause among the listing's conjuncts. */
  lemma TagIsConjunct(p: ListingParams, cat: Resolution, tag: Resolution)
    requires Truthy(p.tag)
    ensures IsConjunct(ListingWhere(p, cat, tag), In("tags", [IdOr(tag, p.tag.value)]))
  {
    var a, b, d := CategoryClause(p, cat), TagClause(p, tag), SearchClause(p);
    var cs := [StatusPublished] + a + b + d;
    assert ListingWhere(p, cat, tag).clauses == cs;
    assert cs[1 + |a|] == b[0];
    ElementIsConjunct(cs, 1 + |a|);
  }

  /**
   * The listing has a search disjunction exactly when the trimmed search
   * term is non-empty, and it is the four-field search on that term.
   */
  lemma ListingSearchFilter(p: ListingParams, cat: Resolution, tag: Resolution, cs: seq<Where>)
    ensures IsConjunct(ListingWhere(p, cat, tag), Or(cs))
        <==> HasSearch(p) && cs == SearchClauses(Text.Trim(p.search.value))
  {
    if IsConjunct(ListingWhere(p, cat, tag), Or(cs)) {
      ListingClauses(p, cat, tag, Or(cs));
    }
    if HasSearch(p) {
      SearchIsConjunct(p, cat, tag);
    }
  }

  /** A non-blank search term puts its disjunction last among the listing's conjuncts. */
  lemma SearchIsConjunct(p: ListingParams, cat: Resolution, tag: Resolution)
    requires HasSearch(p)
    ensures IsConjunct(ListingWhere(p, cat, tag), Or(SearchClauses(Text.Trim(p.search.value))))
  {
    var a, b, d := CategoryClause(p, cat), TagClause(p, tag), SearchClause(p);
    var cs := [StatusPublished] + a + b + d;
    assert ListingWhere(p, cat, tag).clauses == cs;
    assert cs[|cs| - 1] == d[0];
    ElementIsConjunct(cs, |cs| - 1);
  }

  /** The fields the search looks in. */
  predicate IsSearchField(f: string) {
    f == "title" || f == "excerpt" || f == "content" || f == "seo.keywords"
  }

  /** A post matches the search exactly when the term is matched in one of the four searched fields. */
  lemma SearchMatches(term: string, d: Doc, matches: Matcher)
    ensures Holds(Or(SearchClauses(term)), d, matches)
        <==> exists f, v :: IsSearchField(f) && v in Values(d, f) && matches(term, v)
  {
    var cs := SearchClauses(term);
    if exists f, v :: IsSearchField(f) && v in Values(d, f) && matches(term, v) {
      var f, v :| IsSearchField(f) && v in Values(d, f) && matches(term, v);
      var i := if f == "title" then 0 else if f == "excerpt" then 1 else if f == "content" then 2 else 3;
      assert Holds(cs[i], d, matches);
    }
    if Holds(Or(cs), d, matches) {
      var i :| 0 <= i < |cs| && Holds(cs[i], d, matches);
      assert IsSearchField(cs[i].field);
    }
  }

  /** Any store failure in the listing, in a lookup or in the main query, yields the fixed empty page. */
  lemma ListingAbsorbsFailures(p: ListingParams, find: Find)
    requires || (Truthy(p.category) && find(SlugLookup("categories", p.category.value)).Threw?)
             || (Truthy(p.tag) && find(SlugLookup("tags", p.tag.value)).Threw?)
             || find(ListingQuery(p, CategoryOf(p, find), TagOf(p, find))).Threw?
    ensures GetBlogPosts(p, find) == PageResult([], 0, 0, 1, false, false)
  {
  }

  /**
   * A slug the lookup does not know is used as an id by the listing, but
   * makes `getPostsByCategory` and `getPostsByTag` answer nothing.
   */
  lemma SlugMissDiffers(p: ListingParams, find: Find, tag: Resolution, limit: Option<int>)
    requires Truthy(p.category)
    requires find(SlugLookup("categories", p.category.value)).Found?
    requires find(SlugLookup("categories", p.category.value)).value.docs == []
    ensures CategoryOf(p, find) == Miss
    ensures IsConjunct(ListingWhere(p, CategoryOf(p, find), tag), Equals("category", p.category.value))
    ensures GetPostsByCategory(p.category.value, limit, find) == []
  {
    ListingCategoryFilter(p, Miss, tag, p.category.value);
  }

  /** With a store that answers the listing's query honestly, the listing returns only published posts. */
  lemma ListingReturnsPublished(find: Find, p: ListingParams, d: Doc, matches: Matcher)
    requires HonoursQuery(find, ListingQuery(p, CategoryOf(p, find), TagOf(p, find)), matches)
    requires d in GetBlogPosts(p, find).docs
    ensures d.status == "published"
  {
    var a := ListingQuery(p, CategoryOf(p, find), TagOf(p, find));
    ListingIsPublishedOnly(p, CategoryOf(p, find), TagOf(p, find));
    PublishedConjunct(a.where, d, matches);
  }

  /** A document the store returns for `a`, answering `a` honestly, satisfies `a`'s clause. */
  lemma HonestDocs(find: Find, a: FindArgs, d: Doc, matches: Matcher)
    requires HonoursQuery(find, a, matches)
    requires d in DocsOr(find(a)) || FirstDoc(find(a)) == Some(d)
    ensures Holds(a.where, d, matches)
  {
  }

  /** With a store that answers the slug query honestly, `getBlogPostBySlug` finds only a published post. */
  lemma BySlugReturnsPublished(find: Find, slug: string, d: Doc, matches: Matcher)
    requires HonoursQuery(find, BySlugQuery(slug), matches)
    requires GetBlogPostBySlug(slug, find) == Some(d)
    ensures d.status == "published"
  {
    HonestDocs(find, BySlugQuery(slug), d, matches);
    PublishedConjunct(BySlugQuery(slug).where, d, matches);
  }

  /** With a store that answers the recent-posts query honestly, `getRecentPosts` returns only published posts. */
  lemma RecentReturnsPublished(find: Find, limit: Option<int>, d: Doc, matches: Matcher)
    requires HonoursQuery(find, RecentQuery(limit), matches)
    requires d in GetRecentPosts(limit, find)
    ensures d.status == "published"
  {
    HonestDocs(find, RecentQuery(limit), d, matches);
  }

  /** With a store that answers the category's query honestly, `getPostsByCategory` returns only published posts. */
  lemma ByCategoryReturnsPublished(find: Find, slug: string, limit: Option<int>, d: Doc, matches: Matcher)
    requires Resolve(find, "categories", slug).Hit? ==>
               HonoursQuery(find, CategoryPostsQuery(Resolve(find, "categories", slug).id, limit), matches)
    requires d in GetPostsByCategory(slug, limit, find)
    ensures d.status == "published"
  {
    var a := CategoryPostsQuery(Resolve(find, "categories", slug).id, limit);
    HonestDocs(find, a, d, matches);
    PublishedConjunct(a.where, d, matches);
  }

  /** With a store that answers the tag's query honestly, `getPostsByTag` returns only published posts. */
  lemma ByTagReturnsPublished(find: Find, slug: string, limit: Option<int>, d: Doc, matches: Matcher)
    requires Resolve(find, "tags", slug).Hit? ==>
               HonoursQuery(find, TagPostsQuery(Resolve(find, "tags", slug).id, limit), matches)
    requires d in GetPostsByTag(slug, limit, find)
    ensures d.status == "published"
  {
    var a := TagPostsQuery(Resolve(find, "tags", slug).id, limit);
    HonestDocs(find, a, d, matches);
    PublishedConjunct(a.where, d, matches);
  }

  /**
   * With a store that answers the search query honestly, `searchPosts`
   * returns only published posts in which the store matched the term.
   */
  lemma SearchReturnsPublishedMatches(find: Find, query: string, limit: Option<int>, d: Doc, matches: Matcher)
    requires SearchQuery(query, limit).Some? ==> HonoursQuery(find, SearchQuery(query, limit).value, matches)
    requires d in SearchPosts(query, limit, find)
    ensures d.status == "published"
    ensures exists f, v :: IsSearchField(f) && v in Values(d, f) && matches(Text.Trim(query), v)
  {
    var term := Text.Trim(query);
    var a := SearchQuery(query, limit).value;
    HonestDocs(find, a, d, matches);
    PublishedMatch(term, d, matches);
  }

  /** A post satisfying the search clause is published and holds the term in a searched field. */
  lemma PublishedMatch(term: string, d: Doc, matches: Matcher)
    requires Holds(And([StatusPublished, Or(SearchClauses(term))]), d, matches)
    ensures d.status == "published"
    ensures exists f, v :: IsSearchField(f) && v in Values(d, f) && matches(term, v)
  {
    var w := And([StatusPublished, Or(SearchClauses(term))]);
    assert Holds(w.clauses[0], d, matches) && Holds(w.clauses[1], d, matches);
    SearchMatches(term, d, matches);
  }

  /**
   * A store that ignores letter case answers `contains "react"` with a post
   * titled "React" honestly.
   */
  lemma CaseBlindMatch()
    ensures Holds(Contains("title", "react"), Doc("1", "published", map["title" := ["React"]]), OccursIgnoringCase)
    ensures !Holds(Contains("title", "react"), Doc("1", "published", map["title" := ["React"]]), Occurs)
  {
    var d := Doc("1", "published", map["title" := ["React"]]);
    assert Values(d, "title") == ["React"];
    assert FoldCase("React") == "react" by {
      assert FoldChar('R') == 'r';
    }
    assert FoldCase("react") == "react";
    assert OccursAt("react", "react", 0);
    assert OccursIgnoringCase("react", "React");
    assert "React" in Values(d, "title");
    assert "React"[0..5] != "react" by { assert "React"[0] == 'R'; }
  }
}

=== FILE: numbers.dfy ===
/**
 * `parseInt(text)` with no radix argument, as in section 19.2.5 of
 * ECMA-262: skip leading white space, read an optional sign, switch to
 * base 16 after a `0x` / `0X` prefix, then read the longest run of digits.
 */
module Numbers {
  import Text

  /** A JavaScript number as `parseInt` can produce it: an integer or NaN. */
  datatype JsNumber = Num(value: int) | NaN

  /** The value of digit `c` in base `radix`, or -1 when `c` is not such a digit. */
  function DigitValue(c: char, radix: nat): (d: int)
    requires radix == 10 || radix == 16
    ensures -1 <= d < radix
  {
    var v :=
      if '0' <= c <= '9' then c as int - '0' as int
      else if 'a' <= c <= 'z' then c as int - 'a' as int + 10
      else if 'A' <= c <= 'Z' then c as int - 'A' as int + 10
      else -1;
    if v < radix then v else -1
  }

  predicate IsDigit(c: char, radix: nat)
    requires radix == 10 || radix == 16
  {
    DigitValue(c, radix) >= 0
  }

  /** The length of the longest prefix of `s` made of base-`radix` digits. */
  function DigitRun(s: string, radix: nat): (n: nat)
    requires radix == 10 || radix == 16
    ensures n <= |s|
    ensures forall i :: 0 <= i < n ==> IsDigit(s[i], radix)
    ensures n == |s| || !IsDigit(s[n], radix)
    decreases |s|
  {
    if |s| > 0 && IsDigit(s[0], radix) then 1 + DigitRun(s[1..], radix) else 0
  }

  /** The number the digits `z` denote in base `radix`, most significant first. */
  function DigitsValue(z: string, radix: nat): nat
    requires radix == 10 || radix == 16
    requires forall i :: 0 <= i < |z| ==> IsDigit(z[i], radix)
  {
    if z == [] then 0
    else
      assert IsDigit(z[|z| - 1], radix);
      DigitsValue(z[..|z| - 1], radix) * radix + DigitValue(z[|z| - 1], radix)
  }

  /** Splits off the sign: the text after it and the factor it stands for. */
  function Sign(s: string): (string, int) {
    if |s| > 0 && s[0] == '-' then (s[1..], -1)
    else if |s| > 0 && s[0] == '+' then (s[1..], 1)
    else (s, 1)
  }

  /** Splits off a hexadecimal prefix: the text after it and the radix it selects. */
  function Radix(s: string): (string, nat) {
    if |s| >= 2 && s[0] == '0' && (s[1] == 'x' || s[1] == 'X') then (s[2..], 16) else (s, 10)
  }

  /** `parseInt(s)`. The sign of a zero result is not kept. */
  function ParseInt(s: string): (r: JsNumber)
    ensures Text.AllSpace(s) ==> r == NaN
    ensures |s| > 0 && '1' <= s[0] <= '9' ==> r.Num? && r.value >= 0
  {
    assert Text.AllSpace(s) ==> Text.TrimStart(s) == [] by {
      if Text.AllSpace(s) { TrimStartOfBlank(s); }
    }
    assert |s| > 0 && '1' <= s[0] <= '9' ==>
             Sign(Text.TrimStart(s)) == (s, 1) && Radix(s) == (s, 10) && DigitRun(s, 10) > 0 by {
      if |s| > 0 && '1' <= s[0] <= '9' { LeadingDigitStart(s); }
    }
    var (unsigned, sign) := Sign(Text.TrimStart(s));
    var (body, radix) := Radix(unsigned);
    var n := DigitRun(body, radix);
    if n == 0 then NaN else Num(sign * DigitsValue(body[..n], radix))
  }

  /** Blank text leaves nothing once the leading spaces are gone. */
  lemma {:induction false} TrimStartOfBlank(s: string)
    requires Text.AllSpace(s)
    ensures Text.TrimStart(s) == []
    decreases |s|
  {
    if s != [] {
      assert Text.IsJsSpace(s[0]);
      assert Text.AllSpace(s[1..]) by {
        forall i | 0 <= i < |s[1..]| ensures Text.IsJsSpace(s[1..][i]) {
          assert s[1..][i] == s[i + 1];
        }
      }
      TrimStartOfBlank(s[1..]);
    }
  }

  /** Text starting with a digit 1-9 is read unsigned, in base 10, with at least one digit. */
  lemma LeadingDigitStart(s: string)
    requires |s| > 0 && '1' <= s[0] <= '9'
    ensures Sign(Text.TrimStart(s)) == (s, 1) && Radix(s) == (s, 10) && DigitRun(s, 10) > 0
  {
    assert !Text.IsJsSpace(s[0]);
    assert Text.TrimStart(s) == s;
    assert DigitValue(s[0], 10) == s[0] as int - '0' as int;
  }

  /** The decimal digits of `n`, without leading zeros. */
  function Decimal(n: nat): (r: string)
    ensures |r| >= 1 && '0' <= r[0] <= '9'
    ensures forall i :: 0 <= i < |r| ==> '0' <= r[i] <= '9'
    ensures n > 0 ==> r[0] != '0'
  {
    var last := ['0' + (n % 10) as char];
    if n < 10 then last else Decimal(n / 10) + last
  }

  /**
   * The decimal digits of `n`, with `-` in front when it is negative. This is
   * how JavaScript prints an integer of magnitude below 10^21; larger ones
   * print in exponent form, which this model does not cover.
   */
  function IntToString(n: int): string {
    if n < 0 then "-" + Decimal(-n) else Decimal(n)
  }

  lemma {:induction false} DecimalValue(n: nat)
    ensures forall i :: 0 <= i < |Decimal(n)| ==> IsDigit(Decimal(n)[i], 10)
    ensures DigitsValue(Decimal(n), 10) == n
  {
    var r := Decimal(n);
    if n >= 10 {
      DecimalValue(n / 10);
      assert r[..|r| - 1] == Decimal(n / 10);
    }
  }

  /** The run of digits stops where the digits `d` end. */
  lemma {:induction false} DigitRunOfPrefix(d: string, rest: string, radix: nat)
    requires radix == 10 || radix == 16
    requires forall i :: 0 <= i < |d| ==> IsDigit(d[i], radix)
    requires rest == [] || !IsDigit(rest[0], radix)
    ensures DigitRun(d + rest, radix) == |d|
    decreases |d|
  {
    if d == [] {
      assert d + rest == rest;
    } else {
      assert (d + rest)[1..] == d[1..] + rest;
      DigitRunOfPrefix(d[1..], rest, radix);
    }
  }

  /** The decimal digits of `m` start with no space, sign or hex prefix. */
  lemma DecimalStart(m: nat)
    ensures var d := Decimal(m);
              && !Text.IsJsSpace(d[0]) && Sign(d) == (d, 1) && Radix(d) == (d, 10)
  {
    var d := Decimal(m);
    assert !Text.IsJsSpace(d[0]) && Sign(d) == (d, 1) by {
      assert '0' <= d[0] <= '9';
    }
    if m == 0 {
      assert |d| == 1;
    }
  }

  /** The decimal digits of `m` are one run of digits worth `m`. */
  lemma DecimalRun(m: nat)
    ensures var d := Decimal(m); DigitRun(d, 10) == |d| && DigitsValue(d, 10) == m
  {
    var d := Decimal(m);
    DecimalValue(m);
    DigitRunOfPrefix(d, [], 10);
    assert d + [] == d;
  }

  /** The decimal digits of `m`: no space or sign in front, no hex prefix, all digits, value `m`. */
  lemma DecimalFacts(m: nat)
    ensures var d := Decimal(m);
              && !Text.IsJsSpace(d[0]) && Sign(d) == (d, 1) && Radix(d) == (d, 10)
              && DigitRun(d, 10) == |d| && DigitsValue(d, 10) == m
  {
    DecimalStart(m);
    DecimalRun(m);
  }

  /** How `parseInt` reads a string with no leading space, a sign and a decimal body. */
  lemma ParseIntDecimal(s: string, body: string, sign: int)
    requires |s| > 0 && !Text.IsJsSpace(s[0])
    requires Sign(s) == (body, sign)
    requires Radix(body) == (body, 10)
    requires 0 < DigitRun(body, 10)
    ensures ParseInt(s) == Num(sign * DigitsValue(body[..DigitRun(body, 10)], 10))
  {
  }

  /** `parseInt` of a sign followed by nothing but decimal digits. */
  lemma ParseIntWhole(s: string, body: string, sign: int, v: nat)
    requires |s| > 0 && !Text.IsJsSpace(s[0])
    requires Sign(s) == (body, sign) && Radix(body) == (body, 10)
    requires 0 < DigitRun(body, 10) == |body| && DigitsValue(body, 10) == v
    ensures ParseInt(s) == Num(sign * v)
  {
    ParseIntDecimal(s, body, sign);
    assert body[..|body|] == body;
  }

  /** The decimal digits of a non-negative integer read back as it. */
  lemma ParseIntOfDecimal(m: nat)
    ensures ParseInt(Decimal(m)) == Num(m)
  {
    DecimalFacts(m);
    ParseIntWhole(Decimal(m), Decimal(m), 1, m);
  }

  /** A minus sign before the digits of `m` reads back as `-m`. */
  lemma ParseIntOfNegative(m: nat)
    ensures ParseInt("-" + Decimal(m)) == Num(-(m as int))
  {
    var d := Decimal(m);
    var s := "-" + d;
    assert s[0] == '-' && s[1..] == d;
    DecimalFacts(m);
    ParseIntWhole(s, d, -1, m);
  }

  /** `parseInt` reads back the decimal digits of every integer, sign included. */
  lemma ParseIntOfIntToString(n: int)
    ensures ParseInt(IntToString(n)) == Num(n)
  {
    if n < 0 {
      var m: nat := -n;
      assert IntToString(n) == "-" + Decimal(m);
      ParseIntOfNegative(m);
    } else {
      assert IntToString(n) == Decimal(n);
      ParseIntOfDecimal(n);
    }
  }

  /**
   * Text after the digits is ignored: `parseInt("12abc")` is 12. The one
   * exception is an `x` or `X` right after a lone `0`, which starts a
   * hexadecimal number instead.
   */
  lemma ParseIntIgnoresTrailingText(m: nat, rest: string)
    requires rest == [] || !IsDigit(rest[0], 10)
    requires m > 0 || rest == [] || (rest[0] != 'x' && rest[0] != 'X')
    ensures ParseInt(Decimal(m) + rest) == Num(m)
  {
    var d := Decimal(m);
    var s := d + rest;
    DecimalFacts(m);
    DigitRunOfPrefix(d, rest, 10);
    assert s[0] == d[0] && s[..|d|] == d;
    assert Radix(s) == (s, 10) by {
      if |s| >= 2 && s[0] == '0' {
        assert m == 0 && d == "0" && s[1] == rest[0];
      }
    }
    ParseIntDecimal(s, s, 1);
  }

  /** Text that starts with neither white space, a sign nor a digit is not a number: `parseInt("abc")` is NaN. */
  lemma ParseIntOfWord(s: string)
    requires s != [] && !Text.IsJsSpace(s[0]) && s[0] != '-' && s[0] != '+' && !IsDigit(s[0], 10)
    ensures ParseInt(s) == NaN
  {
    assert Text.TrimStart(s) == s;
    assert Sign(s) == (s, 1) && Radix(s) == (s, 10);
  }
}

=== FILE: posts.dfy ===
/** The blog post record of the front end, and the data a form submits for one. */
module Posts {

  datatype BlogPost = BlogPost(
    id: string,
    title: string,
    content: string,
    excerpt: string,
    author: string,
    createdAt: string,
    updatedAt: string,
    published: bool,
    tags: seq<string>)

  /** A post without the fields the store assigns (`Omit<BlogPost, 'id' | 'createdAt' | 'updatedAt'>`). */
  datatype PostDraft = PostDraft(
    title: string,
    content: string,
    excerpt: string,
    author: string,
    published: bool,
    tags: seq<string>)

  /** The editable part of a post. */
  function DraftOf(p: BlogPost): PostDraft {
    PostDraft(p.title, p.content, p.excerpt, p.author, p.published, p.tags)
  }

  /** `{...draft, id, createdAt, updatedAt}`. */
  function WithMeta(d: PostDraft, id: string, createdAt: string, updatedAt: string): (p: BlogPost)
    ensures DraftOf(p) == d
    ensures p.id == id && p.createdAt == createdAt && p.updatedAt == updatedAt
  {
    BlogPost(id, d.title, d.content, d.excerpt, d.author, createdAt, updatedAt, d.published, d.tags)
  }
}

=== FILE: posts_api.dfy ===
/**
 * The front end's posts client: the conversions between its `BlogPost`
 * and the document shape of the CMS, and the in-memory fallback store the
 * client uses when the CMS cannot be reached. The fallback store is the
 * sequence `store`; each operation returns the store it leaves behind.
 * Fresh ids and timestamps come in as parameters.
 */
module PostsApi {
  import opened Wrappers
  import opened Posts

  /** One entry of the CMS's tag array; `tag` is `None` when the entry has none. */
  datatype PayloadTag = PayloadTag(tag: Option<string>)

  /** A post document as the CMS answers it; `published` and `tags` may be missing. */
  datatype PayloadPost = PayloadPost(
    id: string,
    title: string,
    content: string,
    excerpt: string,
    author: string,
    createdAt: string,
    updatedAt: string,
    published: Option<bool>,
    tags: Option<seq<PayloadTag>>)

  /** The body the client sends to the CMS to create or update a post. */
  datatype PayloadBody = PayloadBody(
    title: string,
    content: string,
    excerpt: string,
    author: string,
    published: bool,
    tags: seq<PayloadTag>)

  /** The tag texts of the CMS entries, skipping missing and empty ones, in order. */
  function TagTexts(ts: seq<PayloadTag>): (tags: seq<string>)
    ensures |tags| <= |ts|
    ensures forall i :: 0 <= i < |tags| ==> tags[i] != []
    ensures forall t :: t in tags <==> t != [] && PayloadTag(Some(t)) in ts
  {
    if ts == [] then []
    else
      var rest := TagTexts(ts[1..]);
      if ts[0].tag.Some? && ts[0].tag.value != [] then [ts[0].tag.value] + rest else rest
  }

  /** One entry gives its text when it has a non-empty one, and nothing otherwise. */
  lemma TagTextsOfOne(t: PayloadTag)
    ensures t.tag.Some? && t.tag.value != [] ==> TagTexts([t]) == [t.tag.value]
    ensures t.tag.None? || t.tag.value == [] ==> TagTexts([t]) == []
  {
    assert [t][1..] == [];
  }

  /** Reading tags keeps their order: the texts of `a + b` are those of `a` followed by those of `b`. */
  lemma {:induction false} TagTextsAppend(a: seq<PayloadTag>, b: seq<PayloadTag>)
    ensures TagTexts(a + b) == TagTexts(a) + TagTexts(b)
  {
    if a == [] {
      assert a + b == b;
    } else {
      assert (a + b)[1..] == a[1..] + b;
      TagTextsAppend(a[1..], b);
    }
  }

  /** `transformPayloadPost`. */
  function FromPayload(pp: PayloadPost): (p: BlogPost)
    ensures p.id == pp.id && p.title == pp.title && p.content == pp.content
    ensures p.excerpt == pp.excerpt && p.author == pp.author
    ensures p.createdAt == pp.createdAt && p.updatedAt == pp.updatedAt
    ensures p.published <==> pp.published == Some(true)
    ensures pp.tags.None? ==> p.tags == []
    ensures pp.tags.Some? ==> p.tags == TagTexts(pp.tags.value)
  {
    BlogPost(pp.id, pp.title, pp.content, pp.excerpt, pp.author, pp.createdAt, pp.updatedAt,
             pp.published.GetOr(false), if pp.tags.Some? then TagTexts(pp.tags.value) else [])
  }

  /** Each tag wrapped as `{tag}`, in order. */
  function WrapTags(tags: seq<string>): (ts: seq<PayloadTag>)
    ensures |ts| == |tags|
    ensures forall i :: 0 <= i < |tags| ==> ts[i] == PayloadTag(Some(tags[i]))
  {
    seq(|tags|, i requires 0 <= i < |tags| => PayloadTag(Some(tags[i])))
  }

  /** `transformToPayloadPost`. */
  function ToPayload(d: PostDraft): (b: PayloadBody)
    ensures b.title == d.title && b.content == d.content && b.excerpt == d.excerpt
    ensures b.author == d.author && b.published == d.published
    ensures |b.tags| == |d.tags|
    ensures forall i :: 0 <= i < |d.tags| ==> b.tags[i] == PayloadTag(Some(d.tags[i]))
  {
    PayloadBody(d.title, d.content, d.excerpt, d.author, d.published, WrapTags(d.tags))
  }

  /** The document the CMS holds after storing `b` under the id and timestamps it assigns. */
  function Stored(b: PayloadBody, id: string, createdAt: string, updatedAt: string): PayloadPost {
    PayloadPost(id, b.title, b.content, b.excerpt, b.author, createdAt, updatedAt, Some(b.published),
                Some(b.tags))
  }

  /** Reading back wrapped non-empty tags gives them all, in order. */
  lemma {:induction false} TagTextsOfNonEmpty(tags: seq<string>)
    requires forall i :: 0 <= i < |tags| ==> tags[i] != []
    ensures TagTexts(WrapTags(tags)) == tags
  {
    if tags != [] {
      assert WrapTags(tags)[1..] == WrapTags(tags[1..]);
      TagTextsOfNonEmpty(tags[1..]);
      assert tags == [tags[0]] + tags[1..];
    }
  }

  /** An empty tag at index `k` is lost when wrapped tags are read back. */
  lemma {:induction false} TagTextsDropEmpty(tags: seq<string>, k: nat)
    requires k < |tags| && tags[k] == []
    ensures |TagTexts(WrapTags(tags))| < |tags|
  {
    assert WrapTags(tags)[1..] == WrapTags(tags[1..]);
    if k > 0 {
      TagTextsDropEmpty(tags[1..], k - 1);
    }
  }

  /** Reading back wrapped tags gives them all exactly when none is empty. */
  lemma TagTextsOfWrapped(tags: seq<string>)
    ensures (forall i :: 0 <= i < |tags| ==> tags[i] != []) ==> TagTexts(WrapTags(tags)) == tags
    ensures (exists i :: 0 <= i < |tags| && tags[i] == []) ==> |TagTexts(WrapTags(tags))| < |tags|
  {
    if forall i :: 0 <= i < |tags| ==> tags[i] != [] {
      TagTextsOfNonEmpty(tags);
    } else {
      var k :| 0 <= k < |tags| && tags[k] == [];
      TagTextsDropEmpty(tags, k);
    }
  }

  /**
   * Sending a draft to the CMS and reading the stored post back gives the
   * same draft exactly when no tag is the empty string.
   */
  lemma RoundTrip(d: PostDraft, id: string, createdAt: string, updatedAt: string)
    ensures DraftOf(FromPayload(Stored(ToPayload(d), id, createdAt, updatedAt))) == d
        <==> forall i :: 0 <= i < |d.tags| ==> d.tags[i] != []
  {
    TagTextsOfWrapped(d.tags);
  }

  // ----- The fallback store -----

  /** The index of the first post with id `id`, if any. */
  function FindIndex(store: seq<BlogPost>, id: string): (r: Option<nat>)
    ensures r.None? <==> forall i :: 0 <= i < |store| ==> store[i].id != id
    ensures r.Some? ==> r.value < |store| && store[r.value].id == id
                        && forall j :: 0 <= j < r.value ==> store[j].id != id
  {
    if store == [] then None
    else if store[0].id == id then Some(0)
    else
      var r := FindIndex(store[1..], id);
      if r.Some? then Some(r.value + 1) else None
  }

  /** `getPost`: the first post with that id, or `None`. */
  function GetPost(store: seq<BlogPost>, id: string): (r: Option<BlogPost>)
    ensures r.None? <==> forall i :: 0 <= i < |store| ==> store[i].id != id
    ensures r.Some? ==> r.value.id == id
                        && exists i :: 0 <= i < |store| && store[i] == r.value
                                       && forall j :: 0 <= j < i ==> store[j].id != id
  {
    match FindIndex(store, id)
    case None => None
    case Some(i) => Some(store[i])
  }

  /**
   * `createPost`: the new post goes to the front of the store. The id and
   * the two timestamps come from three separate clock readings.
   */
  function CreatePost(store: seq<BlogPost>, d: PostDraft, id: string, createdAt: string,
                      updatedAt: string): (r: (seq<BlogPost>, BlogPost))
    ensures DraftOf(r.1) == d && r.1.id == id
    ensures r.1.createdAt == createdAt && r.1.updatedAt == updatedAt
    ensures |r.0| == |store| + 1 && r.0[0] == r.1 && r.0[1..] == store
  {
    var post := WithMeta(d, id, createdAt, updatedAt);
    ([post] + store, post)
  }

  /** The fields `updatePost` may be given; `None` marks a field left out. */
  datatype PostPatch = PostPatch(
    id: Option<string>,
    title: Option<string>,
    content: Option<string>,
    excerpt: Option<string>,
    author: Option<string>,
    createdAt: Option<string>,
    published: Option<bool>,
    tags: Option<seq<string>>)

  /** `{...post, ...patch, updatedAt: now}`. */
  function Merge(p: BlogPost, patch: PostPatch, now: string): (q: BlogPost)
    ensures q.updatedAt == now
    ensures q.title == patch.title.GetOr(p.title) && q.content == patch.content.GetOr(p.content)
    ensures q.excerpt == patch.excerpt.GetOr(p.excerpt) && q.author == patch.author.GetOr(p.author)
    ensures q.id == patch.id.GetOr(p.id) && q.createdAt == patch.createdAt.GetOr(p.createdAt)
    ensures q.published == patch.published.GetOr(p.published) && q.tags == patch.tags.GetOr(p.tags)
  {
    BlogPost(patch.id.GetOr(p.id), patch.title.GetOr(p.title), patch.content.GetOr(p.content),
             patch.excerpt.GetOr(p.excerpt), patch.author.GetOr(p.author),
             patch.createdAt.GetOr(p.createdAt), now, patch.published.GetOr(p.published),
             patch.tags.GetOr(p.tags))
  }

  /** `updatePost`: merges the patch into the first post with that id; `None` when there is none. */
  function UpdatePost(store: seq<BlogPost>, id: string, patch: PostPatch, now: string)
    : (r: (seq<BlogPost>, Option<BlogPost>))
    ensures r.1.None? <==> forall i :: 0 <= i < |store| ==> store[i].id != id
    ensures r.1.None? ==> r.0 == store
    ensures r.1.Some? ==> exists i :: FindIndex(store, id) == Some(i)
                                      && r.0 == store[i := Merge(store[i], patch, now)]
                                      && r.1.value == r.0[i]
    ensures |r.0| == |store|
  {
    match FindIndex(store, id)
    case None => (store, None)
    case Some(i) =>
      var updated := store[i := Merge(store[i], patch, now)];
      (updated, Some(updated[i]))
  }

  /** `deletePost`: removes the first post with that id; `false` when there is none. */
  function DeletePost(store: seq<BlogPost>, id: string): (r: (seq<BlogPost>, bool))
    ensures !r.1 <==> forall i :: 0 <= i < |store| ==> store[i].id != id
    ensures !r.1 ==> r.0 == store
    ensures r.1 ==> |r.0| == |store| - 1
                    && exists i :: FindIndex(store, id) == Some(i) && r.0 == store[..i] + store[i + 1..]
  {
    match FindIndex(store, id)
    case None => (store, false)
    case Some(i) => (store[..i] + store[i + 1..], true)
  }

  /** Deleting a post that was just created restores the store. */
  lemma DeleteUndoesCreate(store: seq<BlogPost>, d: PostDraft, id: string, createdAt: string,
                           updatedAt: string)
    ensures DeletePost(CreatePost(store, d, id, createdAt, updatedAt).0, id) == (store, true)
  {
    var s := CreatePost(store, d, id, createdAt, updatedAt).0;
    assert FindIndex(s, id) == Some(0);
    assert s[..0] + s[1..] == store;
  }

  /** After an update, the post is found under its id with the patched fields. */
  lemma GetAfterUpdate(store: seq<BlogPost>, id: string, patch: PostPatch, now: string)
    requires patch.id.None?
    requires GetPost(store, id).Some?
    ensures GetPost(UpdatePost(store, id, patch, now).0, id)
            == Some(Merge(GetPost(store, id).value, patch, now))
  {
    var i := FindIndex(store, id).value;
    var s := UpdatePost(store, id, patch, now).0;
    assert s[i].id == id;
    assert forall j :: 0 <= j < i ==> s[j] == store[j];
    assert FindIndex(s, id) == Some(i) by {
      FindIndexUnique(s, id, i);
    }
  }

  /** An index holding the id with no earlier one is what `FindIndex` answers. */
  lemma {:induction false} FindIndexUnique(store: seq<BlogPost>, id: string, i: nat)
    requires i < |store| && store[i].id == id
    requires forall j :: 0 <= j < i ==> store[j].id != id
    ensures FindIndex(store, id) == Some(i)
  {
    if i > 0 {
      FindIndexUnique(store[1..], id, i - 1);
    }
  }
}

=== FILE: queries.dfy ===
/**
 * The query language of the document store: `where` clauses, the
 * arguments of a `find` call, and the page of documents it answers.
 * `Holds` gives the clauses the meaning the blog relies on; the store
 * itself is a parameter of every read.
 */
module Queries {
  import opened Wrappers
  import opened Numbers

  /** A `where` clause. Sibling keys of one JavaScript object combine as `And`. */
  datatype Where =
    | Equals(field: string, value: string)
    | In(field: string, values: seq<string>)
    | Contains(field: string, text: string)
    | And(clauses: seq<Where>)
    | Or(clauses: seq<Where>)

  /**
   * A stored document: its id, its `status`, and every other field as the
   * list of its values (one for a plain field, several for a has-many
   * relation such as `tags`).
   */
  datatype Doc = Doc(id: string, status: string, fields: map<string, seq<string>>)

  /** The values of field `f` of `d`. A missing field has none. */
  function Values(d: Doc, f: string): seq<string> {
    if f == "id" then [d.id]
    else if f == "status" then [d.status]
    else if f in d.fields then d.fields[f]
    else []
  }

  predicate OccursAt(t: string, v: string, i: int) {
    0 <= i <= |v| - |t| && v[i..i + |t|] == t
  }

  /**
   * How the store decides that a field value `v` contains the text `t` of a
   * `contains` clause. Whether letter case counts is the store's choice, so
   * it is a parameter of `Holds`.
   */
  type Matcher = (string, string) -> bool

  /** `t` is a substring of `v`, letter case counting: one `Matcher`. */
  predicate Occurs(t: string, v: string) {
    exists i :: 0 <= i <= |v| - |t| && OccursAt(t, v, i)
  }

  /** `c` with an ASCII capital replaced by its small letter. */
  function FoldChar(c: char): (r: char)
    ensures 'A' <= c <= 'Z' ==> r as int == c as int + 32
    ensures !('A' <= c <= 'Z') ==> r == c
  {
    if 'A' <= c <= 'Z' then (c as int + 32) as char else c
  }

  /** `s` with every ASCII capital replaced by its small letter. */
  function FoldCase(s: string): (r: string)
    ensures |r| == |s|
    ensures forall i :: 0 <= i < |s| ==> r[i] == FoldChar(s[i])
  {
    if s == [] then [] else [FoldChar(s[0])] + FoldCase(s[1..])
  }

  /** `t` is a substring of `v` when ASCII letter case is ignored: another `Matcher`. */
  predicate OccursIgnoringCase(t: string, v: string) {
    Occurs(FoldCase(t), FoldCase(v))
  }

  /** Document `d` satisfies clause `w` when the store matches `contains` text by `matches`. */
  predicate Holds(w: Where, d: Doc, matches: Matcher) {
    match w
    case Equals(f, v) => v in Values(d, f)
    case In(f, vs) => exists v :: v in vs && v in Values(d, f)
    case Contains(f, t) => exists v :: v in Values(d, f) && matches(t, v)
    case And(cs) => forall i :: 0 <= i < |cs| ==> Holds(cs[i], d, matches)
    case Or(cs) => exists i :: 0 <= i < |cs| && Holds(cs[i], d, matches)
  }

  /** `c` is `w` itself or, recursively, one of the conjuncts of `w`. */
  predicate IsConjunct(w: Where, c: Where) {
    w == c || (w.And? && exists i :: 0 <= i < |w.clauses| && IsConjunct(w.clauses[i], c))
  }

  /** Whatever satisfies a clause satisfies each of its conjuncts. */
  lemma {:induction false} ConjunctHolds(w: Where, c: Where, d: Doc, matches: Matcher)
    requires IsConjunct(w, c) && Holds(w, d, matches)
    ensures Holds(c, d, matches)
    decreases w
  {
    if w != c {
      var i :| 0 <= i < |w.clauses| && IsConjunct(w.clauses[i], c);
      ConjunctHolds(w.clauses[i], c, d, matches);
    }
  }

  /** The clause every public read carries. */
  const StatusPublished := Equals("status", "published")

  /** Only published documents satisfy a clause that has `status = published` as a conjunct. */
  lemma PublishedConjunct(w: Where, d: Doc, matches: Matcher)
    requires IsConjunct(w, StatusPublished) && Holds(w, d, matches)
    ensures d.status == "published"
  {
    ConjunctHolds(w, StatusPublished, d, matches);
  }

  datatype Sort = Ascending(field: string) | Descending(field: string)

  /** `sort: '-publishedDate'`. */
  const NewestFirst := Descending("publishedDate")

  /** The arguments of one `find` call. */
  datatype FindArgs = FindArgs(
    collection: string,
    where: Where,
    limit: int,
    page: Option<JsNumber>,
    sort: Option<Sort>)

  /** A page of results, with the pagination fields the blog passes on. */
  datatype PageResult = PageResult(
    docs: seq<Doc>,
    totalDocs: int,
    totalPages: int,
    page: int,
    hasPrevPage: bool,
    hasNextPage: bool)

  /**
   * The store answers query `a` with no document that `a`'s clause excludes,
   * matching `contains` text by `matches`. Only the query a read makes
   * needs to be answered honestly.
   */
  predicate HonoursQuery(find: FindArgs -> Response<PageResult>, a: FindArgs, matches: Matcher) {
    find(a).Found? ==> forall d :: d in find(a).value.docs ==> Holds(a.where, d, matches)
  }
}

=== FILE: search_params.dfy ===
/**
 * `URLSearchParams` as the URL Standard defines it (section 6.2): an
 * ordered list of name/value pairs, `set` and `delete`, and serialisation
 * with the application/x-www-form-urlencoded serializer (section 5.2).
 * `Target` is the URL a component navigates to: the path, followed by
 * `?` and the query only when the query is not empty.
 */
module SearchParams {
  import opened Wrappers
  import opened Entries
  import Text

  /** `delete(name)`: removes every entry named `name`. */
  function Delete(es: Entries, name: string): (r: Entries)
    ensures Absent(r, name)
    ensures Others(r, {name}) == Others(es, {name})
    ensures |r| == |es| - Count(es, name)
  {
    OthersRemoves(es, {name}, name);
    OthersLength(es, name);
    OthersOfOthers(es, {name}, {name});
    assert {name} + {name} == {name};
    Others(es, {name})
  }

  /**
   * `set(name, value)`: the first entry named `name` takes `value` and the
   * later ones are removed; without such an entry, one is appended.
   */
  function Set(es: Entries, name: string, value: string): (r: Entries)
    ensures Count(r, name) == 1 && Get(r, name) == Some(value)
    ensures Others(r, {name}) == Others(es, {name})
    ensures Absent(es, name) ==> r == es + [(name, value)]
    ensures forall i :: FirstAt(es, name, i) ==> i < |r| && r[..i] == es[..i] && r[i] == (name, value)
  {
    if Absent(es, name) then
      AppendNew(es, name, value);
      es + [(name, value)]
    else
      ReplaceFirstCounts(es, name, value);
      ReplaceFirstOthers(es, name, value);
      forall i | FirstAt(es, name, i)
        ensures i < |ReplaceFirst(es, name, value)|
        ensures ReplaceFirst(es, name, value)[..i] == es[..i]
        ensures ReplaceFirst(es, name, value)[i] == (name, value)
      {
        ReplaceFirstPlace(es, name, value, i);
      }
      ReplaceFirst(es, name, value)
  }

  /** The `set` of a name that is present, replacing its first entry in place. */
  function ReplaceFirst(es: Entries, name: string, value: string): Entries {
    if es == [] then []
    else if es[0].0 == name then [(name, value)] + Delete(es[1..], name)
    else [es[0]] + ReplaceFirst(es[1..], name, value)
  }

  lemma {:induction false} ReplaceFirstCounts(es: Entries, name: string, value: string)
    requires !Absent(es, name)
    ensures Count(ReplaceFirst(es, name, value), name) == 1
    ensures Get(ReplaceFirst(es, name, value), name) == Some(value)
  {
    var r := ReplaceFirst(es, name, value);
    if es[0].0 == name {
      assert r[1..] == Delete(es[1..], name);
    } else {
      ReplaceFirstCounts(es[1..], name, value);
      assert r[1..] == ReplaceFirst(es[1..], name, value);
    }
  }

  lemma {:induction false} ReplaceFirstOthers(es: Entries, name: string, value: string)
    ensures Others(ReplaceFirst(es, name, value), {name}) == Others(es, {name})
  {
    var r := ReplaceFirst(es, name, value);
    if es != [] {
      if es[0].0 == name {
        var rest := Delete(es[1..], name);
        assert r[1..] == rest;
        OthersOfOthers(es[1..], {name}, {name});
        assert {name} + {name} == {name};
      } else {
        ReplaceFirstOthers(es[1..], name, value);
        assert r[1..] == ReplaceFirst(es[1..], name, value);
      }
    }
  }

  lemma {:induction false} ReplaceFirstPlace(es: Entries, name: string, value: string, i: int)
    requires FirstAt(es, name, i)
    ensures i < |ReplaceFirst(es, name, value)|
    ensures ReplaceFirst(es, name, value)[..i] == es[..i]
    ensures ReplaceFirst(es, name, value)[i] == (name, value)
  {
    var r := ReplaceFirst(es, name, value);
    if i > 0 {
      assert es[0].0 != name;
      assert FirstAt(es[1..], name, i - 1);
      ReplaceFirstPlace(es[1..], name, value, i - 1);
      assert r[1..] == ReplaceFirst(es[1..], name, value);
      assert r[..i] == [es[0]] + r[1..][..i - 1];
      assert es[..i] == [es[0]] + es[1..][..i - 1];
    }
  }

  lemma {:induction false} AppendNew(es: Entries, name: string, value: string)
    requires Absent(es, name)
    ensures Count(es + [(name, value)], name) == 1 && Get(es + [(name, value)], name) == Some(value)
    ensures Others(es + [(name, value)], {name}) == Others(es, {name})
  {
    if es != [] {
      AppendNew(es[1..], name, value);
      assert (es + [(name, value)])[1..] == es[1..] + [(name, value)];
    } else {
      assert ([(name, value)])[1..] == [];
    }
  }

  /** Filtering out `names` leaves no entry under those names. */
  lemma {:induction false} OthersRemoves(es: Entries, names: set<string>, n: string)
    requires n in names
    ensures Absent(Others(es, names), n)
  {
    if es != [] {
      OthersRemoves(es[1..], names, n);
    }
  }

  /** Filtering out `names` keeps `get` and `getAll` of every other name. */
  lemma {:induction false} OthersKeeps(es: Entries, names: set<string>, n: string)
    requires n !in names
    ensures GetAll(Others(es, names), n) == GetAll(es, n)
    ensures Get(Others(es, names), n) == Get(es, n)
  {
    if es != [] {
      OthersKeeps(es[1..], names, n);
      var r := Others(es, names);
      if es[0].0 !in names {
        assert r[1..] == Others(es[1..], names);
      }
    }
  }

  /** Two lists that agree outside `names` agree on `get` and `getAll` of every other name. */
  lemma OthersAgree(es: Entries, r: Entries, names: set<string>, n: string)
    requires n !in names
    requires Others(r, names) == Others(es, names)
    ensures Get(r, n) == Get(es, n) && GetAll(r, n) == GetAll(es, n)
  {
    OthersKeeps(r, names, n);
    OthersKeeps(es, names, n);
  }

  /** Filtering out one name drops exactly the entries under it. */
  lemma {:induction false} OthersLength(es: Entries, n: string)
    ensures |Others(es, {n})| == |es| - Count(es, n)
  {
    if es != [] {
      OthersLength(es[1..], n);
    }
  }

  /** Deleting in two steps is deleting the union of the names. */
  lemma {:induction false} OthersOfOthers(es: Entries, a: set<string>, b: set<string>)
    ensures Others(Others(es, a), b) == Others(es, a + b)
  {
    if es != [] {
      OthersOfOthers(es[1..], a, b);
      var m := Others(es, a);
      if es[0].0 !in a {
        assert m[1..] == Others(es[1..], a);
      }
    }
  }

  // ----- Serialisation -----

  /** The UTF-8 encoding of one code point. */
  function Utf8(c: char): (bs: seq<int>)
    ensures 1 <= |bs| <= 4
    ensures forall i :: 0 <= i < |bs| ==> 0 <= bs[i] < 256
    ensures |bs| == 1 <==> c as int < 0x80
    ensures |bs| == 1 ==> bs[0] == c as int
  {
    var cp := c as int;
    if cp < 0x80 then [cp]
    else if cp < 0x800 then [0xC0 + cp / 64, 0x80 + cp % 64]
    else if cp < 0x10000 then [0xE0 + cp / 4096, 0x80 + (cp / 64) % 64, 0x80 + cp % 64]
    else [0xF0 + cp / 262144, 0x80 + (cp / 4096) % 64, 0x80 + (cp / 64) % 64, 0x80 + cp % 64]
  }

  /** The bytes the form-urlencoded serializer writes as themselves: `*-._`, digits and ASCII letters. */
  predicate IsPlainByte(b: int) {
    b == 0x2A || b == 0x2D || b == 0x2E || (0x30 <= b <= 0x39) || (0x41 <= b <= 0x5A) || b == 0x5F
    || (0x61 <= b <= 0x7A)
  }

  /** The characters a serialised query is made of. */
  predicate IsQueryChar(c: char) {
    IsPlainByte(c as int) || c == '+' || c == '%'
  }

  const HexDigits := "0123456789ABCDEF"

  /** One byte as the serializer writes it: space as `+`, plain bytes as themselves, others as `%XX`. */
  function EncodeByte(b: int): (r: string)
    requires 0 <= b < 256
    ensures 1 <= |r| <= 3
    ensures forall i :: 0 <= i < |r| ==> IsQueryChar(r[i])
  {
    if b == 0x20 then "+"
    else if IsPlainByte(b) then [b as char]
    else ['%', HexDigits[b / 16], HexDigits[b % 16]]
  }

  function EncodeBytes(bs: seq<int>): (r: string)
    requires forall i :: 0 <= i < |bs| ==> 0 <= bs[i] < 256
    ensures |r| >= |bs|
    ensures forall i :: 0 <= i < |r| ==> IsQueryChar(r[i])
  {
    if bs == [] then [] else EncodeByte(bs[0]) + EncodeBytes(bs[1..])
  }

  /** A name or value as it appears in the query string. */
  function Encode(s: string): (r: string)
    ensures |r| >= |s|
    ensures forall i :: 0 <= i < |r| ==> IsQueryChar(r[i])
  {
    if s == [] then [] else EncodeBytes(Utf8(s[0])) + Encode(s[1..])
  }

  /** One entry in the query string: `name=value`. */
  function EncodePair(e: (string, string)): (r: string)
    ensures '=' in r && '&' !in r
  {
    var r := Encode(e.0) + "=" + Encode(e.1);
    assert r[|Encode(e.0)|] == '=';
    r
  }

  function EncodePairs(es: Entries): (r: seq<string>)
    ensures |r| == |es|
    ensures forall i :: 0 <= i < |r| ==> r[i] == EncodePair(es[i])
  {
    if es == [] then [] else [EncodePair(es[0])] + EncodePairs(es[1..])
  }

  /** `toString()`: the entries joined with `&`. */
  function Serialize(es: Entries): (q: string)
    ensures q == [] <==> es == []
  {
    var ps := EncodePairs(es);
    JoinOfNonEmpty(ps, "&");
    Text.Join(ps, "&")
  }

  /** Joining at least one non-empty piece gives a non-empty string. */
  lemma {:induction false} JoinOfNonEmpty(ps: seq<string>, glue: string)
    requires forall i :: 0 <= i < |ps| ==> ps[i] != []
    ensures Text.Join(ps, glue) == [] <==> ps == []
  {
    if |ps| > 1 {
      assert |Text.Join(ps, glue)| >= |ps[0]|;
    }
  }

  /** The query string splits at `&` back into one `name=value` piece per entry. */
  lemma SerializeSplitsPerEntry(es: Entries)
    requires es != []
    ensures Text.Split(Serialize(es), '&') == EncodePairs(es)
  {
    Text.SplitJoin(EncodePairs(es), '&');
  }

  /** The URL the components push: the path, then `?query` only when the query is non-empty. */
  function Target(path: string, es: Entries): (url: string)
    ensures url == path <==> es == []
    ensures es != [] ==> url == path + "?" + Serialize(es)
    ensures '?' !in path ==> ('?' in url <==> es != [])
  {
    var q := Serialize(es);
    if q == [] then path
    else
      var url := path + "?" + q;
      assert url[|path|] == '?';
      url
  }
}

=== FILE: sidebar.dfy ===
/**
 * The blog sidebar: changing or clearing a filter rewrites the current
 * query parameters and navigates to the result, always back on page one;
 * the active-filter labels show a term's name; at most ten tags are offered.
 */
module Sidebar {
  import opened Wrappers
  import opened Entries
  import opened SearchParams

  /** The parameters after `updateFilters(key, value)`. */
  function FilterParams(es: Entries, key: string, value: Option<string>): (r: Entries)
    ensures Absent(r, "page")
    ensures Truthy(value) && key != "page" ==> Count(r, key) == 1 && Get(r, key) == value
    ensures !Truthy(value) ==> Absent(r, key)
    ensures Others(r, {key, "page"}) == Others(es, {key, "page"})
  {
    var changed := if Truthy(value) then Set(es, key, value.value) else Delete(es, key);
    FilterFacts(es, key, value, changed);
    Delete(changed, "page")
  }

  lemma FilterFacts(es: Entries, key: string, value: Option<string>, changed: Entries)
    requires changed == if Truthy(value) then Set(es, key, value.value) else Delete(es, key)
    ensures Truthy(value) && key != "page" ==>
              Count(Delete(changed, "page"), key) == 1 && Get(Delete(changed, "page"), key) == value
    ensures !Truthy(value) ==> Absent(Delete(changed, "page"), key)
    ensures Others(Delete(changed, "page"), {key, "page"}) == Others(es, {key, "page"})
  {
    var r := Delete(changed, "page");
    assert r == Others(changed, {"page"});
    if key != "page" {
      OthersKeeps(changed, {"page"}, key);
    }
    OthersOfOthers(changed, {"page"}, {key, "page"});
    OthersOfOthers(changed, {key}, {key, "page"});
    OthersOfOthers(es, {key}, {key, "page"});
    assert {"page"} + {key, "page"} == {key, "page"} == {key} + {key, "page"};
  }

  /** `updateFilters(key, value)`: the URL it navigates to. */
  function UpdateFilters(path: string, es: Entries, key: string, value: Option<string>): (url: string)
    ensures url == path <==> FilterParams(es, key, value) == []
    ensures FilterParams(es, key, value) != [] ==> url == path + "?" + Serialize(FilterParams(es, key, value))
  {
    Target(path, FilterParams(es, key, value))
  }

  /** `clearAllFilters`: back to the bare path, whatever the parameters were. */
  function ClearAllFilters(path: string, es: Entries): (url: string)
    ensures url == Target(path, [])
  {
    path
  }

  /** A category or tag as the sidebar lists it. */
  datatype Term = Term(id: string, name: string, slug: string, color: string)

  /** The first term with slug `slug`. */
  function FindBySlug(terms: seq<Term>, slug: string): (r: Option<Term>)
    ensures r.None? <==> forall i :: 0 <= i < |terms| ==> terms[i].slug != slug
    ensures r.Some? ==> exists i :: 0 <= i < |terms| && terms[i] == r.value && r.value.slug == slug
                                    && forall j :: 0 <= j < i ==> terms[j].slug != slug
  {
    if terms == [] then None
    else if terms[0].slug == slug then Some(terms[0])
    else
      var r := FindBySlug(terms[1..], slug);
      if r.Some? then
        var i :| 0 <= i < |terms[1..]| && terms[1..][i] == r.value && r.value.slug == slug
                 && forall j :: 0 <= j < i ==> terms[1..][j].slug != slug;
        assert terms[i + 1] == r.value;
        r
      else r
  }

  /** `find(t => t.slug === current)?.name || current`: the label of an active filter. */
  function ActiveLabel(terms: seq<Term>, current: string): (text: string)
    ensures FindBySlug(terms, current).Some? && FindBySlug(terms, current).value.name != [] ==>
              text == FindBySlug(terms, current).value.name
    ensures FindBySlug(terms, current).Some? && FindBySlug(terms, current).value.name == [] ==>
              text == current
    ensures FindBySlug(terms, current).None? ==> text == current
    ensures text != current ==> exists i :: 0 <= i < |terms| && terms[i].slug == current
                                             && terms[i].name == text
  {
    match FindBySlug(terms, current)
    case Some(t) => if t.name != [] then t.name else current
    case None => current
  }

  /** `tags.slice(0, 10)`: the tags offered as buttons. */
  function PopularTags(tags: seq<Term>): (r: seq<Term>)
    ensures |r| == if |tags| < 10 then |tags| else 10
    ensures r == tags[..|r|]
  {
    if |tags| < 10 then tags else tags[..10]
  }
}

=== FILE: slugs.dfy ===
/**
 * The `beforeValidate` hook of the tag collection's `slug` field: a slug
 * the editor typed is kept; otherwise one is derived from the tag's name
 * by lower-casing it, replacing every run of characters other than
 * `a`-`z` and `0`-`9` by one `-`, and dropping a `-` at either end.
 */
module Slugs {
  import opened Wrappers

  /** The characters the pattern `[a-z0-9]` matches. */
  predicate IsAlnum(c: char) {
    ('a' <= c <= 'z') || ('0' <= c <= '9')
  }

  /**
   * The part of `toLowerCase` that can reach a slug. Only these code points
   * have a lower-case form containing `a`-`z` or `0`-`9`: `A`-`Z`, the
   * KELVIN SIGN (lower case `k`) and the capital dotted I (lower case `i`
   * followed by a combining dot). Every other code point is kept as it is:
   * its true lower-case form holds no `[a-z0-9]` either, and the slug rule
   * turns both into the same `-`.
   */
  function LowerChar(c: char): (r: string)
    ensures |r| >= 1
    ensures IsAlnum(c) ==> r == [c]
  {
    if 'A' <= c <= 'Z' then [(c as int + 32) as char]
    else if c == '\U{212A}' then ['k']
    else if c == '\U{0130}' then ['i', '\U{0307}']
    else [c]
  }

  function Lower(s: string): (r: string)
    ensures |r| >= |s|
  {
    if s == [] then [] else Lower(s[..|s| - 1]) + LowerChar(s[|s| - 1])
  }

  /** The `[a-z0-9]` characters of `s`, in order. */
  function Alnums(s: string): string {
    if s == [] then []
    else Alnums(s[..|s| - 1]) + (if IsAlnum(s[|s| - 1]) then [s[|s| - 1]] else [])
  }

  /** Every character of `s` may appear in a slug. */
  predicate SlugAlphabet(s: string) {
    forall i :: 0 <= i < |s| ==> IsAlnum(s[i]) || s[i] == '-'
  }

  /** `s` never has two `-` in a row. */
  predicate NoDoubleDash(s: string) {
    forall i :: 0 <= i < |s| - 1 ==> !(s[i] == '-' && s[i + 1] == '-')
  }

  /** `s` neither starts nor ends with `-`. */
  predicate NoEdgeDash(s: string) {
    s == [] || (s[0] != '-' && s[|s| - 1] != '-')
  }

  /** The shape of every slug the hook derives. */
  predicate IsSlug(s: string) {
    SlugAlphabet(s) && NoDoubleDash(s) && NoEdgeDash(s)
  }

  /** `s` holds no `[a-z0-9]` character. */
  predicate Junk(s: string) {
    forall k :: 0 <= k < |s| ==> !IsAlnum(s[k])
  }

  /**
   * `replace(/[^a-z0-9]+/g, '-')`: each maximal run of other characters
   * becomes one `-`. `CollapseAppend` and `CollapseOfJunk` say where the
   * `-` go.
   */
  function Collapse(s: string): (r: string)
    ensures SlugAlphabet(r) && NoDoubleDash(r)
    ensures Alnums(r) == Alnums(s)
    ensures r == [] <==> s == []
    ensures r != [] ==> (r[0] == '-' <==> !IsAlnum(s[0]))
    ensures r != [] && IsAlnum(s[0]) ==> r[0] == s[0]
    ensures r != [] ==> (r[|r| - 1] == '-' <==> !IsAlnum(s[|s| - 1]))
  {
    if s == [] then [] else Step(Collapse(s[..|s| - 1]), s[|s| - 1])
  }

  /** One character more for `Collapse`: a letter or digit is kept; another character extends or starts a `-`. */
  function Step(r: string, c: char): string {
    if IsAlnum(c) then r + [c]
    else if r != [] && r[|r| - 1] == '-' then r
    else r + "-"
  }

  /** A step only looks at the end of what has been collapsed so far. */
  lemma StepAppend(u: string, v: string, c: char)
    requires v != []
    ensures Step(u + v, c) == u + Step(v, c)
  {
    assert (u + v)[|u + v| - 1] == v[|v| - 1];
  }

  /** The `^-` half of the pattern: a `-` at the start is removed. */
  function DropLeading(t: string): string {
    if t != [] && t[0] == '-' then t[1..] else t
  }

  /** The `-$` half of the pattern: a `-` at the end is removed. */
  function DropTrailing(t: string): string {
    if t != [] && t[|t| - 1] == '-' then t[..|t| - 1] else t
  }

  /**
   * `replace(/(^-|-$)/g, '')`: one `-` is removed from each end of `t`; a
   * lone `-` matches the first alternative and leaves nothing.
   */
  function StripDashes(t: string): (r: string)
    ensures Alnums(r) == Alnums(t)
    ensures SlugAlphabet(t) ==> SlugAlphabet(r)
    ensures SlugAlphabet(t) && NoDoubleDash(t) ==> IsSlug(r)
    ensures NoEdgeDash(t) ==> r == t
    ensures t == "-" ==> r == []
    ensures |t| >= 2 && t[0] == '-' && t[|t| - 1] == '-' ==> r == t[1..|t| - 1]
    ensures |t| >= 2 && t[0] == '-' && t[|t| - 1] != '-' ==> r == t[1..]
    ensures |t| >= 2 && t[0] != '-' && t[|t| - 1] == '-' ==> r == t[..|t| - 1]
  {
    AlnumsDropFirst(t);
    DropTrailing(DropLeading(t))
  }

  /** Dropping a leading `-` keeps the `[a-z0-9]` characters. */
  lemma {:induction false} AlnumsDropFirst(t: string)
    ensures t != [] && t[0] == '-' ==> Alnums(t[1..]) == Alnums(t)
    decreases |t|
  {
    if t != [] && t[0] == '-' && |t| > 1 {
      AlnumsDropFirst(t[..|t| - 1]);
      assert t[1..][..|t| - 2] == t[..|t| - 1][1..];
    }
  }

  /** The slug derived from a tag name. */
  function Slugify(name: string): (r: string)
    ensures IsSlug(r)
    ensures Alnums(r) == Alnums(Lower(name))
  {
    StripDashes(Collapse(Lower(name)))
  }

  /**
   * The hook: `value` is the slug as submitted and `name` the tag name in
   * the submitted data (`None` for `undefined` or `null`). JavaScript treats
   * the empty string as false, so an empty slug counts as missing and an
   * empty name cannot be slugified.
   */
  function SlugHook(value: Option<string>, name: Option<string>): (r: Option<string>)
    ensures Truthy(value) ==> r == value
    ensures !Truthy(value) && !Truthy(name) ==> r == value
    ensures !Truthy(value) && Truthy(name) ==>
              r == Some(Slugify(name.value)) && IsSlug(r.value)
              && Alnums(r.value) == Alnums(Lower(name.value))
  {
    if !Truthy(value) && Truthy(name) then
      Some(Slugify(name.value))
    else value
  }

  /** Lower-casing works character by character. */
  lemma {:induction false} LowerAppend(x: string, y: string)
    ensures Lower(x + y) == Lower(x) + Lower(y)
    decreases |y|
  {
    if y == [] {
      assert x + y == x;
    } else {
      var p := y[..|y| - 1];
      var c := y[|y| - 1];
      assert Lower(x + y) == Lower(x + p) + LowerChar(c) by {
        assert (x + y)[..|x + y| - 1] == x + p && (x + y)[|x + y| - 1] == c;
      }
      LowerAppend(x, p);
      Regroup(Lower(x), Lower(p), LowerChar(c));
    }
  }

  /** The `[a-z0-9]` characters of `x + y` are those of `x` followed by those of `y`. */
  lemma {:induction false} AlnumsAppend(x: string, y: string)
    ensures Alnums(x + y) == Alnums(x) + Alnums(y)
    decreases |y|
  {
    if y == [] {
      assert x + y == x;
    } else {
      var p := y[..|y| - 1];
      AlnumsAppend(x, p);
      assert (x + y)[..|x + y| - 1] == x + p && (x + y)[|x + y| - 1] == y[|y| - 1];
    }
  }

  /** A text with a letter or digit splits into a part ending in one and a tail without any. */
  lemma SplitTrailingJunk(s: string) returns (x: string, j: string)
    requires Alnums(s) != []
    ensures s == x + j && x != [] && IsAlnum(x[|x| - 1]) && Junk(j)
    decreases |s|
  {
    var c := s[|s| - 1];
    if IsAlnum(c) {
      x, j := s, [];
    } else {
      var p := s[..|s| - 1];
      var j';
      x, j' := SplitTrailingJunk(p);
      j := j' + [c];
      assert s == p + [c];
    }
  }

  /** A text with a letter or digit splits into a head without any and a part starting with one. */
  lemma SplitLeadingJunk(s: string) returns (j: string, y: string)
    requires Alnums(s) != []
    ensures s == j + y && y != [] && IsAlnum(y[0]) && Junk(j)
    decreases |s|
  {
    if IsAlnum(s[0]) {
      j, y := [], s;
    } else {
      assert [s[0]] + s[1..] == s;
      assert Alnums([s[0]]) == [] by {
        assert [s[0]][..0] == [];
      }
      AlnumsAppend([s[0]], s[1..]);
      var j';
      j', y := SplitLeadingJunk(s[1..]);
      j := [s[0]] + j';
    }
  }

  /**
   * Collapsing works piecewise wherever the cut does not split a run of
   * other characters: one side is empty or a letter or digit touches the cut.
   */
  lemma {:induction false} CollapseAppend(x: string, y: string)
    requires x == [] || y == [] || IsAlnum(x[|x| - 1]) || IsAlnum(y[0])
    ensures Collapse(x + y) == Collapse(x) + Collapse(y)
    decreases |y|
  {
    if y == [] {
      assert x + y == x;
    } else if x == [] {
      assert x + y == y;
    } else {
      var p := y[..|y| - 1];
      var c := y[|y| - 1];
      assert Collapse(x + y) == Step(Collapse(x + p), c) by {
        assert (x + y)[..|x + y| - 1] == x + p && (x + y)[|x + y| - 1] == c;
      }
      if p == [] {
        assert Collapse(y) == Step([], c);
        assert x + p == x;
      } else {
        assert p[0] == y[0];
        CollapseAppend(x, p);
        StepAppend(Collapse(x), Collapse(p), c);
      }
    }
  }

  /** A non-empty run of other characters collapses to one `-`. */
  lemma {:induction false} CollapseOfJunk(m: string)
    requires m != [] && Junk(m)
    ensures Collapse(m) == "-"
    decreases |m|
  {
    var p := m[..|m| - 1];
    if p != [] {
      assert Junk(p) by {
        assert forall k :: 0 <= k < |p| ==> p[k] == m[k];
      }
      CollapseOfJunk(p);
    }
  }

  /** Stripping after a letter or digit, followed by nothing or one `-`, only drops a leading `-`. */
  lemma StripBeforeEdge(x: string, d: string)
    requires x != [] && IsAlnum(x[|x| - 1])
    requires d == [] || d == "-"
    ensures StripDashes(x + d) == DropLeading(x)
  {
    var t := x + d;
    var a := DropLeading(x);
    assert a != [] && IsAlnum(a[|a| - 1]) by {
      assert a[|a| - 1] == x[|x| - 1];
    }
    assert DropLeading(t) == a + d by {
      if x[0] == '-' {
        assert t[1..] == x[1..] + d;
      }
    }
    assert DropTrailing(a + d) == a by {
      if d == "-" {
        assert (a + d)[..|a + d| - 1] == a;
      } else {
        assert a + d == a;
      }
    }
  }

  /** Stripping nothing or one `-` followed by a letter or digit only drops a trailing `-`. */
  lemma StripAfterEdge(e: string, y: string)
    requires y != [] && IsAlnum(y[0])
    requires e == [] || e == "-"
    ensures StripDashes(e + y) == DropTrailing(y)
  {
    var t := e + y;
    if e == "-" {
      assert t[1..] == y;
    } else {
      assert t == y;
    }
  }

  /** Stripping a `-` between a letter or digit on each side keeps it and works on the two outer ends. */
  lemma StripAroundDash(x: string, y: string)
    requires x != [] && IsAlnum(x[|x| - 1]) && y != [] && IsAlnum(y[0])
    ensures StripDashes(x + "-" + y) == DropLeading(x) + "-" + DropTrailing(y)
  {
    var t := x + "-" + y;
    var a := DropLeading(x) + "-" + y;
    assert DropLeading(t) == a by {
      if x[0] == '-' {
        assert t[1..] == x[1..] + "-" + y;
      }
    }
    assert a[|a| - 1] == y[|y| - 1];
    if y[|y| - 1] == '-' {
      assert a[..|a| - 1] == DropLeading(x) + "-" + y[..|y| - 1];
    }
  }

  /** The slug of a name with a letter or digit, from the collapsed part up to its last one. */
  lemma SlugifyLeft(a: string) returns (x: string, j: string)
    requires Alnums(Lower(a)) != []
    ensures Lower(a) == x + j && x != [] && IsAlnum(x[|x| - 1]) && Junk(j)
    ensures Slugify(a) == DropLeading(Collapse(x))
  {
    x, j := SplitTrailingJunk(Lower(a));
    CollapseAppend(x, j);
    if j != [] {
      CollapseOfJunk(j);
    }
    var cx := Collapse(x);
    assert cx != [] && IsAlnum(cx[|cx| - 1]);
    StripBeforeEdge(cx, Collapse(j));
  }

  /** The slug of a name with a letter or digit, from the collapsed part from its first one. */
  lemma SlugifyRight(b: string) returns (k: string, y: string)
    requires Alnums(Lower(b)) != []
    ensures Lower(b) == k + y && y != [] && IsAlnum(y[0]) && Junk(k)
    ensures Slugify(b) == DropTrailing(Collapse(y))
  {
    k, y := SplitLeadingJunk(Lower(b));
    CollapseAppend(k, y);
    if k != [] {
      CollapseOfJunk(k);
    }
    StripAfterEdge(Collapse(k), Collapse(y));
  }

  /** A run of other characters between two letters or digits collapses to one `-`. */
  lemma CollapseAroundJunk(x: string, m: string, y: string)
    requires x != [] && IsAlnum(x[|x| - 1]) && y != [] && IsAlnum(y[0])
    requires m != [] && Junk(m)
    ensures Collapse(x + m + y) == Collapse(x) + "-" + Collapse(y)
  {
    var my := m + y;
    assert Collapse(my) == "-" + Collapse(y) by {
      CollapseAppend(m, y);
      CollapseOfJunk(m);
    }
    assert Collapse(x + my) == Collapse(x) + Collapse(my) by {
      CollapseAppend(x, my);
    }
    Regroup(x, m, y);
    Regroup(Collapse(x), "-", Collapse(y));
  }

  /** Runs of other characters put together are one. */
  lemma JunkAppend(j: string, s: string, k: string)
    requires Junk(j) && Junk(s) && Junk(k)
    ensures Junk(j + s + k)
  {
  }

  /** Regrouping five parts around the middle three. */
  lemma Regroup5(x: string, j: string, s: string, k: string, y: string)
    ensures (x + j) + s + (k + y) == x + (j + s + k) + y
  {
  }

  /** Concatenation is associative. */
  lemma Regroup(u: string, v: string, w: string)
    ensures u + (v + w) == u + v + w
  {
  }

  /**
   * Two names joined by a separator without letters or digits slugify to
   * their two slugs joined by one `-`: "Hello, World" gives "hello-world".
   */
  lemma SlugifySeparated(a: string, sep: string, b: string)
    requires sep != [] && Alnums(Lower(sep)) == []
    requires Alnums(Lower(a)) != [] && Alnums(Lower(b)) != []
    ensures Slugify(a + sep + b) == Slugify(a) + "-" + Slugify(b)
  {
    var s := Lower(sep);
    assert Lower(a + sep + b) == Lower(a) + s + Lower(b) by {
      LowerAppend(a + sep, b);
      LowerAppend(a, sep);
    }
    var x, j := SlugifyLeft(a);
    var k, y := SlugifyRight(b);
    var m := j + s + k;
    assert Junk(m) by {
      NoAlnumsAnywhere(s);
      JunkAppend(j, s, k);
    }
    assert Lower(a + sep + b) == x + m + y by {
      Regroup5(x, j, s, k, y);
    }
    SlugifyAroundJunk(a + sep + b, x, m, y);
  }

  /** A name that lower-cases to a letter-or-digit part, a run of other characters and another such part. */
  lemma SlugifyAroundJunk(n: string, x: string, m: string, y: string)
    requires x != [] && IsAlnum(x[|x| - 1]) && y != [] && IsAlnum(y[0])
    requires m != [] && Junk(m)
    requires Lower(n) == x + m + y
    ensures Slugify(n) == DropLeading(Collapse(x)) + "-" + DropTrailing(Collapse(y))
  {
    CollapseAroundJunk(x, m, y);
    StripAroundDash(Collapse(x), Collapse(y));
  }

  /** A name that lower-cases to a slug is its own slug: "React" gives "react". */
  lemma SlugifyOfSlug(name: string)
    requires IsSlug(Lower(name))
    ensures Slugify(name) == Lower(name)
  {
    CollapseOfSlugShape(Lower(name));
  }

  /** Lower-casing leaves slug characters alone. */
  lemma {:induction false} LowerOfSlugAlphabet(t: string)
    requires SlugAlphabet(t)
    ensures Lower(t) == t
    decreases |t|
  {
    if t != [] {
      LowerOfSlugAlphabet(t[..|t| - 1]);
      assert t[..|t| - 1] + [t[|t| - 1]] == t;
    }
  }

  /** Collapsing runs changes nothing in a string that has no run longer than one `-`. */
  lemma {:induction false} CollapseOfSlugShape(t: string)
    requires SlugAlphabet(t) && NoDoubleDash(t)
    ensures Collapse(t) == t
    decreases |t|
  {
    if t != [] {
      var p := t[..|t| - 1];
      CollapseOfSlugShape(p);
      assert p + [t[|t| - 1]] == t;
      if !IsAlnum(t[|t| - 1]) && p != [] {
        assert p[|p| - 1] == t[|t| - 2];
      }
    }
  }

  /** Slugify(Slugify(n)) == Slugify(n): a derived slug derives itself. */
  lemma SlugifyIdempotent(name: string)
    ensures Slugify(Slugify(name)) == Slugify(name)
  {
    var s := Slugify(name);
    LowerOfSlugAlphabet(s);
    CollapseOfSlugShape(s);
  }

  /** A string without `[a-z0-9]` characters has none at any index. */
  lemma {:induction false} NoAlnumsAnywhere(s: string)
    requires Alnums(s) == []
    ensures forall i :: 0 <= i < |s| ==> !IsAlnum(s[i])
    decreases |s|
  {
    if s != [] {
      NoAlnumsAnywhere(s[..|s| - 1]);
      assert forall i :: 0 <= i < |s| - 1 ==> s[..|s| - 1][i] == s[i];
    }
  }

  /** A name with no letters or digits (after lower-casing) yields the empty slug. */
  lemma SlugOfNameWithoutAlnums(name: string)
    requires Alnums(Lower(name)) == []
    ensures Slugify(name) == []
  {
    var s := Slugify(name);
    NoAlnumsAnywhere(s);
  }

  /** Lower-casing "C++" gives "c++". */
  lemma LowerExample()
    ensures Lower("C++") == "c++"
  {
    var n := "C++";
    assert n[..2][..1] == n[..1] && n[..1][..0] == [] && n[..3] == n;
    assert Lower(n[..1]) == "c";
    assert Lower(n[..2]) == "c+";
  }

  /** Collapsing "c++" gives "c-". */
  lemma CollapseExample()
    ensures Collapse("c++") == "c-"
  {
    assert Collapse("c") == "c" by {
      assert "c"[..0] == [];
    }
    assert Junk("++");
    CollapseOfJunk("++");
    CollapseAppend("c", "++");
    assert "c" + "++" == "c++";
  }

  /** A worked case: "C++" becomes "c". */
  lemma SlugifyExample()
    ensures Slugify("C++") == "c"
  {
    LowerExample();
    CollapseExample();
    assert StripDashes("c-") == "c";
  }
}

=== FILE: text.dfy ===
/**
 * String helpers with the semantics of the JavaScript built-ins the blog
 * uses: `String.prototype.trim`, `split(',')` and `Array.prototype.join`.
 */
module Text {

  /** The code points `trim` removes: ECMAScript WhiteSpace and LineTerminator. */
  predicate IsJsSpace(c: char) {
    || c == '\t' || c == '\n' || c == '\U{000B}' || c == '\U{000C}' || c == '\r' || c == ' '
    || c == '\U{00A0}' || c == '\U{1680}' || ('\U{2000}' <= c <= '\U{200A}')
    || c == '\U{2028}' || c == '\U{2029}' || c == '\U{202F}' || c == '\U{205F}'
    || c == '\U{3000}' || c == '\U{FEFF}'
  }

  /** Neither end of `s` is a space character. */
  predicate Trimmed(s: string) {
    s == [] || (!IsJsSpace(s[0]) && !IsJsSpace(s[|s| - 1]))
  }

  /** `s` with its leading spaces removed. */
  function TrimStart(s: string): (r: string)
    ensures |r| <= |s| && r == s[|s| - |r|..]
    ensures AllSpace(s[..|s| - |r|])
    ensures r == [] || !IsJsSpace(r[0])
    decreases |s|
  {
    if |s| > 0 && IsJsSpace(s[0]) then TrimStart(s[1..]) else s
  }

  /** `s` with its trailing spaces removed. */
  function TrimEnd(s: string): (r: string)
    ensures |r| <= |s| && r == s[..|r|]
    ensures AllSpace(s[|r|..])
    ensures r == [] || !IsJsSpace(r[|r| - 1])
    decreases |s|
  {
    if |s| > 0 && IsJsSpace(s[|s| - 1]) then TrimEnd(s[..|s| - 1]) else s
  }

  /** Every character of `s` is a space. */
  predicate AllSpace(s: string) {
    forall i :: 0 <= i < |s| ==> IsJsSpace(s[i])
  }

  /** `r` occurs in `s` at offset `i`, and only spaces surround it. */
  predicate SpaceFramedAt(r: string, s: string, i: int) {
    && 0 <= i <= |s| - |r|
    && s[i..i + |r|] == r
    && AllSpace(s[..i])
    && AllSpace(s[i + |r|..])
  }

  /** `String.prototype.trim`: the infix of `s` left once the spaces at both ends are removed. */
  function Trim(s: string): (r: string)
    ensures Trimmed(r)
    ensures exists i :: SpaceFramedAt(r, s, i)
  {
    var a := TrimStart(s);
    TrimFrame(s, a, TrimEnd(a));
    TrimEnd(a)
  }

  /** Removing the spaces at the start and then at the end leaves a trimmed infix framed by spaces. */
  lemma TrimFrame(s: string, a: string, b: string)
    requires |a| <= |s| && a == s[|s| - |a|..] && AllSpace(s[..|s| - |a|])
    requires a == [] || !IsJsSpace(a[0])
    requires |b| <= |a| && b == a[..|b|] && AllSpace(a[|b|..])
    requires b == [] || !IsJsSpace(b[|b| - 1])
    ensures Trimmed(b) && SpaceFramedAt(b, s, |s| - |a|)
  {
    var i := |s| - |a|;
    var j := i + |b|;
    assert b == s[i..j];
    assert AllSpace(s[j..]) by {
      forall k | 0 <= k < |s| - j
        ensures IsJsSpace(s[j..][k])
      {
        assert s[j..][k] == a[|b|..][k];
      }
    }
    if b != [] {
      assert b[0] == a[0];
    }
  }

  /** Trimming only removes characters. */
  lemma TrimKeepsChars(s: string)
    ensures forall c :: c in Trim(s) ==> c in s
  {
    var r := Trim(s);
    var i :| SpaceFramedAt(r, s, i);
    forall k | 0 <= k < |r|
      ensures r[k] in s
    {
      assert r[k] == s[i..i + |r|][k] == s[i + k];
    }
  }

  /** A trimmed string, with or without one leading space in front, trims to itself. */
  lemma TrimOfSpaced(p: string, t: string)
    requires Trimmed(t)
    requires p == t || p == " " + t
    ensures Trim(p) == t
  {
    if p != t {
      TrimSkipsLeadingSpace(' ', t);
    }
    assert Trim(t) == t;
  }

  /** Leading spaces do not change the result of `trim`. */
  lemma {:induction false} TrimSkipsLeadingSpace(c: char, s: string)
    requires IsJsSpace(c)
    ensures Trim([c] + s) == Trim(s)
  {
    assert ([c] + s)[1..] == s;
  }

  /** `parts` joined with `glue` between neighbours (`Array.prototype.join`). */
  function Join(parts: seq<string>, glue: string): (r: string)
    ensures |parts| == 1 ==> r == parts[0]
    ensures |parts| == 0 ==> r == []
  {
    if |parts| == 0 then []
    else if |parts| == 1 then parts[0]
    else parts[0] + glue + Join(parts[1..], glue)
  }

  /** `s.split(sep)` for a one-character separator: the separator-free pieces between separators. */
  function Split(s: string, sep: char): (parts: seq<string>)
    ensures |parts| >= 1
    ensures forall i :: 0 <= i < |parts| ==> sep !in parts[i]
    ensures Join(parts, [sep]) == s
    decreases |s|
  {
    if |s| == 0 then [[]]
    else
      var rest := Split(s[1..], sep);
      if s[0] == sep then
        assert ([[]] + rest)[1..] == rest;
        [[]] + rest
      else
        var parts := [[s[0]] + rest[0]] + rest[1..];
        assert parts[1..] == rest[1..];
        assert Join(parts, [sep]) == [s[0]] + Join(rest, [sep]);
        parts
  }

  /** Splitting `p + sep + rest` with `sep` not in `p` yields `p` followed by the pieces of `rest`. */
  lemma {:induction false} SplitAfterPiece(p: string, sep: char, rest: string)
    requires sep !in p
    ensures Split(p + [sep] + rest, sep) == [p] + Split(rest, sep)
    decreases |p|
  {
    var s := p + [sep] + rest;
    if p == [] {
      assert s[1..] == rest;
    } else {
      assert s[1..] == p[1..] + [sep] + rest;
      SplitAfterPiece(p[1..], sep, rest);
      assert [p[0]] + p[1..] == p;
    }
  }

  /** A string without the separator is one piece. */
  lemma {:induction false} SplitWithoutSep(s: string, sep: char)
    requires sep !in s
    ensures Split(s, sep) == [s]
    decreases |s|
  {
    if s != [] {
      SplitWithoutSep(s[1..], sep);
      assert [s[0]] + s[1..] == s;
    }
  }

  /** Splitting undoes joining when no piece contains the separator. */
  lemma {:induction false} SplitJoin(parts: seq<string>, sep: char)
    requires |parts| >= 1
    requires forall i :: 0 <= i < |parts| ==> sep !in parts[i]
    ensures Split(Join(parts, [sep]), sep) == parts
    decreases |parts|
  {
    if |parts| == 1 {
      SplitWithoutSep(parts[0], sep);
    } else {
      SplitJoin(parts[1..], sep);
      SplitAfterPiece(parts[0], sep, Join(parts[1..], [sep]));
      assert [parts[0]] + parts[1..] == parts;
    }
  }
}

=== FILE: wrappers.dfy ===
/** Optional values, standing in for JavaScript's `null` / `undefined`. */
module Wrappers {

  datatype Option<+T> = None | Some(value: T) {

    /** The wrapped value, or `default` when there is none. */
    function GetOr(default: T): T {
      match this
      case Some(v) => v
      case None => default
    }
  }

  /** JavaScript truthiness of an optional string: present and not empty. */
  predicate Truthy(o: Option<string>) {
    o.Some? && o.value != []
  }

  /** The outcome of a call into an external service: a value, or a thrown error. */
  datatype Response<+T> = Found(value: T) | Threw
}
